=== FILE: README.md ===
# gnucash2ledger, modelled in Dafny

`gnucash2ledger.py` converts a GnuCash book into a ledger journal. It reads
the book's commodities, accounts and transactions in document order. Each
transaction split looks its account up in an account registry, marks the
account used, and turns its `int/scale` amounts into decimal strings. The
output has three sections separated by a blank line:

- every commodity;
- every used account, under its `Parent:Child` full name, in registry order;
- every transaction, stably sorted by posting date.

This project models that core as pure functions over immutable datatypes and
proves what the conversion promises. The modules are:

- `Wrappers`: `Option`, `Result`, and `Collect`, which gathers results and stops at the first error.
- `Errors`: the two fatal conditions. One is a lookup of an unregistered account id (`KeyError`). The other is an amount that is not two `/`-separated fields (`ValueError`).
- `Text`: Python's `join`, `split`, slicing and `' ' * n`, plus digit strings and their values.
- `Decimal`: `convertValue`.
- `Dates`: the `%Y/%m/%d` date format.
- `Commodities`, `Accounts`, `Splits`, `Transactions`: the four classes and their `toLedgerFormat`.
- `StableSort`: `sorted(..., key=...)`.
- `Convert`: `convert2Ledger` from the parsed book to the output text.

The account registry is an insertion-ordered map, as a Python `dict` is. Overwriting a key keeps its original position.

## Model

| member | source | states |
|---|---|---|
| `Decimal.Fields` | gnucash2ledger.py:175 | Unpacking `rawValue.split('/')` succeeds exactly when the text has one `/`. The two fields are `/`-free and rejoin to the raw text. Any other count is a `MalformedAmount` error. |
| `Decimal.ConvertValueAsWritten` | gnucash2ledger.py:174-185 | The codec exactly as written fails exactly on a malformed amount, and the error carries the raw text. |
| `Decimal.ConvertValue` | gnucash2ledger.py:174-185 | The corrected codec fails exactly on a malformed amount. Otherwise, for a non-empty scale, it gives the integer field's sign, at least one digit, a point and exactly `len(scale)-1` digits. The digits without the point are the magnitude left-padded with zeros. |
| `Decimal.NoRounding` | gnucash2ledger.py:177-185 | Nothing is rounded or dropped. The integer digits times `10^n` plus the `n` fraction digits equal the magnitude's value. |
| `Decimal.SignPreserved` | gnucash2ledger.py:175-185 | Every amount of two `/`-free fields with a non-empty scale converts, and the result starts with `-` exactly when the integer field did. |
| `Decimal.OnePoint` | gnucash2ledger.py:175-185 | Every amount of two `/`-free fields, with a non-empty scale and no `.` in the integer field, converts to text with exactly one decimal point. |
| `Decimal.ConvertPair` | gnucash2ledger.py:175 | An amount built from two `/`-free fields converts as those fields do, in both versions of the codec. |
| `Decimal.AsWrittenAgreesOffOneDigitScale` | gnucash2ledger.py:181-185 | The source and the corrected codec agree for every scale except a one-digit one. |
| `Decimal.AsWrittenOneDigitScale` | gnucash2ledger.py:185 | With a one-digit scale, the source puts the point in front of the signed digits (`[:-0]` is empty). The corrected codec puts it behind them. |
| `Decimal.AsWrittenLosesMagnitude` | gnucash2ledger.py:185 | The source turns `10/1` into `.10` and `-7/1` into `.-7`. Neither has the exact layout. The corrected codec gives `10.` and `-7.`. |
| `Decimal.ExampleNegative` | gnucash2ledger.py:178-185 | The fields of `-12/1000` convert to `-0.012`. |
| `Decimal.ExampleScaled` | gnucash2ledger.py:181-185 | The fields of `500/10` convert to `50.0`. |
| `Decimal.MalformedExamples` | gnucash2ledger.py:175 | `12` and `1/2/3` are malformed amounts. |
| `Dates.Pad` | gnucash2ledger.py:204 | A padded date field is all digits, has the field's value, and is exactly the width when the value fits. |
| `Dates.FormatDateRoundTrip` | gnucash2ledger.py:204 | A printed date is ten characters and reads back as its year, month and day. |
| `Commodities.CommodityBlock` | gnucash2ledger.py:93-100 | A commodity prints as a newline-terminated `commodity <id>` line, then `  note <name> (<space>:<id>)`. It reads back as exactly those two lines. |
| `Accounts.Register` | gnucash2ledger.py:104-113 | Constructing an account stores it under its id, unused. This adds the id to the keys, overwrites any earlier account with that id, and leaves every other account as it was. |
| `Accounts.RegistryKeys` | gnucash2ledger.py:230-232 | The registry's keys are exactly the ids of the account records. |
| `Accounts.LastWriteWins` | gnucash2ledger.py:108 | For a repeated id, the registry holds the account of its last record. |
| `Accounts.RegistryOrder` | gnucash2ledger.py:230-232 | The registry lists its keys in the order of each id's first record. |
| `Accounts.BuildRegistryUnused` | gnucash2ledger.py:112 | Every freshly registered account is unused. |
| `Accounts.MarkUsedAdds` | gnucash2ledger.py:139 | Marking an account used sets its flag and changes nothing else. |
| `Accounts.FullName` | gnucash2ledger.py:115-123 | A full name ends with the account's own name. A failure is the lookup of an unregistered parent id. |
| `Accounts.Ancestors` | gnucash2ledger.py:116-122 | The walk up the parent links stops at a parentless account, an unregistered parent or a ROOT parent, and it visits as many registered non-ROOT ancestors as `ChainLength` counts. |
| `Accounts.FullNameWalk` | gnucash2ledger.py:115-123 | `fullName` fails exactly when the account where the walk stops names an unregistered parent, and the error is the lookup failure of that parent id. Otherwise the result is the names of the non-ROOT ancestors, outermost first, and the account's own name, joined by `:`. |
| `Accounts.FullNameComponents` | gnucash2ledger.py:118-123 | With colon-free names, a full name has one `:` per non-ROOT ancestor, so the ROOT is elided. |
| `Accounts.FullNameAvoids` | gnucash2ledger.py:118-123 | A character other than `:` that no account name contains is absent from every full name. |
| `Accounts.FullNameShape` | gnucash2ledger.py:118-123 | Full names do not depend on `used` flags. |
| `Accounts.FullNameExample` | gnucash2ledger.py:118-123 | `Checking` under `Assets` under the ROOT is `Assets:Checking`. The ROOT itself is just its name. |
| `Accounts.AccountText` | gnucash2ledger.py:125-129 | An account prints as `account <full name>`, then `  note <description> (type: <type>)`, and reads back as those two lines. |
| `Accounts.AccountBlock` | gnucash2ledger.py:125-129 | Printing an account fails exactly when its full name does, with the same error. Otherwise it is the text for that full name. |
| `Accounts.UsedIds` | gnucash2ledger.py:247-248 | The printed accounts are exactly the used ones, taken in registry order. |
| `Splits.NewSplit` | gnucash2ledger.py:135-147 | Constructing a split succeeds exactly when its account is registered and both amounts are well-formed. The errors come in the order account, value, quantity. On success it marks exactly that account used. The flag is `reconciled-state == 'y'`, and both amounts are the corrected codec's output (see "## Left out"). |
| `Splits.StripMinus` | gnucash2ledger.py:162 | Removes exactly one leading `-`, and changes nothing when there is none. |
| `Splits.PriceIsMagnitude` | gnucash2ledger.py:162 | The `@@` total price of a converted value is its digits and point without the sign, and starts with a digit. |
| `Splits.SplitLine` | gnucash2ledger.py:152-172 | A split line fails on an unregistered account, or exactly when the account's full name fails. Otherwise it is the indentation, two spaces, the flag, the full name, four spaces and the amount. |
| `Splits.PriceClauseIffConversion` | gnucash2ledger.py:156-166 | A split line holds no `@` exactly when the account's commodity is the transaction's. Otherwise it holds exactly the two of `@@`, and an account without a commodity takes this branch. |
| `Splits.ReconciledMarker` | gnucash2ledger.py:168-170 | After the indentation and two spaces, a split line goes on with `* ` exactly when the split is reconciled. |
| `Transactions.NewSplitsFails` | gnucash2ledger.py:194-195 | Constructing the splits succeeds exactly when every split can be constructed. Otherwise it fails with the first bad split's error. |
| `Transactions.NewSplitsUsed` | gnucash2ledger.py:194-195 | Constructing the splits marks used exactly the accounts they refer to, and changes nothing else. |
| `Transactions.NewSplitsConverted` | gnucash2ledger.py:194-195 | The constructed splits correspond one to one, in order, to the split elements. |
| `Transactions.NewTransactionSpec` | gnucash2ledger.py:188-195 | A transaction is constructed exactly when all its splits are, and otherwise fails with the first bad split's error. It marks its splits' accounts used and keeps date, currency and description as read. |
| `Transactions.NewTransactionsFails` | gnucash2ledger.py:235-237 | The transaction loop succeeds exactly when every split of every transaction can be constructed. Otherwise it fails with the first bad split of the first bad transaction. |
| `Transactions.NewTransactionsUsed` | gnucash2ledger.py:235-237 | After the loop, an account is used exactly when some split of some transaction refers to it. |
| `Transactions.NewTransactionsConstructed` | gnucash2ledger.py:235-237 | The constructed transactions correspond one to one, in document order, to the transaction elements. |
| `Transactions.SplitLines` | gnucash2ledger.py:200-201 | The split lines are rendered in the transaction's currency, one per split in order. The first split that cannot be rendered fails the whole. |
| `Transactions.TransactionBlock` | gnucash2ledger.py:197-206 | Printing a transaction fails exactly when a split line does, with its error. Otherwise the text ends with a newline. |
| `Transactions.TransactionLines` | gnucash2ledger.py:197-206 | A printed transaction reads back as its `date description` header, one line per split in order (one empty line when there are none), and an empty remainder. |
| `StableSort.SortBy` | gnucash2ledger.py:253 | Sorting is a permutation: same length, same multiset. |
| `StableSort.SortByStable` | gnucash2ledger.py:253 | The sorted sequence is in ascending key order. For every key, the elements with that key keep their original order. |
| `Convert.LoadFails` | gnucash2ledger.py:225-237 | Reading the book succeeds exactly when every split can be constructed, and otherwise fails with the first bad split's error. |
| `Convert.LoadRegistry` | gnucash2ledger.py:230-237 | After reading, the registry has the declared accounts in the declared order. Only `used` flags differ, and an account is used exactly when some split refers to it. |
| `Convert.LoadTransactions` | gnucash2ledger.py:225-237 | After reading, the commodities are as declared and the transactions correspond one to one to the document's. |
| `Convert.CommodityBlocks` | gnucash2ledger.py:243 | The commodity section has one block per commodity, in document order. |
| `Convert.AccountSection` | gnucash2ledger.py:247-248 | The account section renders exactly when every used account's full name does. It has one block per used account, in registry order. |
| `Convert.TransactionSection` | gnucash2ledger.py:252-253 | The transaction section renders exactly when every transaction does, with one block per transaction in the given order. |
| `Convert.Assemble` | gnucash2ledger.py:240-253 | The output renders exactly when the account and transaction sections do. It is the three sections joined by newlines and separated by `\n\n`, with transactions in date order. |
| `Convert.AssembleLines` | gnucash2ledger.py:240-253 | Read line by line, the output is the commodity lines, an empty line, the account lines, an empty line, and the transaction lines. |
| `Convert.Convert` | gnucash2ledger.py:217-255 | The conversion succeeds exactly when every split can be constructed and every referenced account resolves to a full name. Its text is the assembled output of the loaded book, built on the corrected codec. |
| `Convert.ConvertibleIff` | gnucash2ledger.py:240-253 | After a successful read, rendering succeeds exactly when every referenced account resolves to a full name. |
| `Convert.AccountSectionIff` | gnucash2ledger.py:247-248 | The account section renders exactly when every account marked used resolves, resolving against the registry before any flag was set. |
| `Convert.AllReferencedRegistered` | gnucash2ledger.py:139 | After a successful read, every account a split refers to is registered. |
| `Convert.TransactionSectionIff` | gnucash2ledger.py:252-253 | When every referenced account resolves, every transaction renders. |
| `Convert.UsedAccountsReferenced` | gnucash2ledger.py:247-248 | The printed accounts are exactly the referenced ones, in the registry's order. |
| `Convert.UsedAccountsInDocumentOrder` | gnucash2ledger.py:230-232 | The printed accounts appear in the order of their first declaration in the document. |
| `Convert.TransactionsInDateOrder` | gnucash2ledger.py:252-253 | Transactions are printed in ascending date order, same-date ones in document order, and none is lost or repeated. |

## Left out

- Reading the file, with or without gzip (`read_file`), XML parsing and namespaces, and the command line: the model starts from the parsed book (`Document`). Its lists are in document order.
- `dateutil.parser.parse`: a posting date is given already parsed, as a `Timestamp`. The model uses an integer instant for ordering and calendar fields for printing. Time zones and datetime comparison are abstracted into that instant.
- `orElse` and `DefaultAttributeProducer`: a missing optional element is `None`, or the empty string, in the records. An element that is present but empty (`.text` is `None`) is not distinguished from a missing one.
- A cycle of parent links would make `fullName` recurse without end in the source. The model requires the registry to be free of cycles (`Acyclic`) and does not model the recursion error.
- Convert.Convert: requires every registered account to be free of parent cycles, not only the accounts the splits reference. The source walks parents only from used accounts, so it converts a book whose only cycle is among unreferenced accounts (`x` with parent `y` and `y` with parent `x`). The model excludes such books.
- Convert.Convert: its text is built on the corrected codec `Decimal.ConvertValue`, not on the code as written (see "## Findings"). For an amount with a one-digit scale (`10/1`) the model prints `10.` where the source prints `.10`. `Decimal.AsWrittenAgreesOffOneDigitScale` proves that this is the only difference: for every other scale the two codecs give the same text.
- Splits.NewSplit: both amounts are the output of the corrected codec `Decimal.ConvertValue`. For a one-digit scale the source's `Split.__init__` stores `.10` for `10/1`, and the model stores `10.`. `Decimal.AsWrittenAgreesOffOneDigitScale` bounds the difference to that case.
- `getAccount`, and `getParent` for a registered parent: a lookup in the registry map, with the missing-key case as the `MissingAccount` error.
- Python exceptions are one `Result` error each. The traceback and the partially built objects are not modelled.
- The return tuple `(output, commodities, accountDb, transactions)`: only the output text is modelled. `Load` exposes the book that the other three components are built from.
- An account without a commodity prints as `"None"` in the cross-commodity branch. This is modelled by `OptionText`, but the model does not prove a property about the text `None`.
- `%Y`: the model pads the year to four digits. A platform `strftime` may print years below 1000 unpadded. Years of five or more digits are printed in full, and `FormatDateRoundTrip` covers only years below 10000.
- Decimal.ConvertValue: the exact layout is stated only for a non-empty scale. For an empty scale (`5/`, so `n` is -1) the model keeps the source's slicing and states nothing about the text.
- Splits.PriceIsMagnitude: stated only for an integer field whose magnitude is all digits. For a text like `--5` the source strips a single `-`, and the result is not a digit string.
- Convert.Convert: states when the conversion succeeds, but not which error it raises when it fails. Which error is first is stated separately by `Convert.LoadFails` for construction. Rendering errors are always `MissingAccount` of an unregistered id (`Splits.SplitLine`, `Accounts.FullName`).
- Convert.Assemble: its value is stated as the three joined sections. `Convert.AssembleLines` states how that reads back line by line.

## Findings

| source | as written | input that shows it | evidently intended | confidence | as-written member | corrected member |
|---|---|---|---|---|---|---|
| gnucash2ledger.py:185 | With a one-digit scale `n` is 0. `intValue[:-0]` is empty and `intValue[-0:]` is the whole string, so the point goes in front: `.10` for ten whole units, and `.-7` for minus seven. | `10/1`, `-7/1` | The point goes after the digits, as for every other scale: `10.` and `-7.`. Ledger then reads the same amount GnuCash stored. | not executed | `Decimal.AsWrittenLosesMagnitude` | `Decimal.ConvertValue` |

The rest of the model uses the corrected `Decimal.ConvertValue`. `Decimal.AsWrittenAgreesOffOneDigitScale` proves that the two codecs differ only for a one-digit scale. `Decimal.NoRounding` proves the value is exact for the corrected one.

=== FILE: accounts.dfy ===
/** Accounts and the account registry: the table, keyed by account id, that
    every account registers itself in and every split looks its account up
    in. It behaves as a Python dict: keys keep the position of their first
    insertion, and a repeated id overwrites the value in place. */
module Accounts {
  import opened Wrappers
  import opened Errors
  import opened Text

  /** The account type whose name is never shown in a full name. */
  const RootType := "ROOT"

  /** An account as read from the document. A missing description is the
      empty string; a missing parent or commodity is `None`. */
  datatype AccountRecord = AccountRecord(
    id: string,
    name: string,
    description: string,
    accountType: string,
    parent: Option<string>,
    commodity: Option<string>)

  /** A registered account; `used` records whether a split referenced it. */
  datatype Account = Account(
    id: string,
    name: string,
    description: string,
    accountType: string,
    parent: Option<string>,
    commodity: Option<string>,
    used: bool)

  /** The account a record constructs: not yet used. */
  function FromRecord(rec: AccountRecord): Account {
    Account(rec.id, rec.name, rec.description, rec.accountType, rec.parent, rec.commodity, false)
  }

  /** The registry: ids in insertion order, and the account each id maps to. */
  datatype Registry = Registry(order: seq<string>, accounts: map<string, Account>)

  predicate Distinct(s: seq<string>) {
    forall i, j :: 0 <= i < j < |s| ==> s[i] != s[j]
  }

  /** The order lists each key of the map exactly once. */
  predicate Valid(reg: Registry) {
    && Distinct(reg.order)
    && (forall id :: id in reg.accounts ==> id in reg.order)
    && (forall i :: 0 <= i < |reg.order| ==> reg.order[i] in reg.accounts)
  }

  const EmptyRegistry := Registry([], map[])

  /** `accountDb[rec.id] = Account(...)`: insert, or overwrite in place. */
  function Register(reg: Registry, rec: AccountRecord): (r: Registry)
    requires Valid(reg)
    ensures Valid(r)
    ensures r.accounts.Keys == reg.accounts.Keys + {rec.id}
    ensures r.accounts[rec.id] == FromRecord(rec)
    ensures forall id :: id in reg.accounts && id != rec.id ==> r.accounts[id] == reg.accounts[id]
  {
    if rec.id in reg.accounts then Registry(reg.order, reg.accounts[rec.id := FromRecord(rec)])
    else Registry(reg.order + [rec.id], reg.accounts[rec.id := FromRecord(rec)])
  }

  /** The registry after constructing the accounts in document order. */
  function BuildRegistry(recs: seq<AccountRecord>): (r: Registry)
    ensures Valid(r)
    decreases |recs|
  {
    if |recs| == 0 then EmptyRegistry
    else Register(BuildRegistry(recs[..|recs| - 1]), recs[|recs| - 1])
  }

  /** Freshly constructed accounts are all unused. */
  lemma {:induction false} BuildRegistryUnused(recs: seq<AccountRecord>)
    ensures forall id :: id in BuildRegistry(recs).accounts ==> !BuildRegistry(recs).accounts[id].used
    decreases |recs|
  {
    if |recs| > 0 {
      BuildRegistryUnused(recs[..|recs| - 1]);
    }
  }

  /** Index of the first record with id `id`, or `|recs|` when there is none. */
  function FirstIndex(recs: seq<AccountRecord>, id: string): (i: nat)
    ensures i <= |recs|
    ensures i < |recs| ==> recs[i].id == id
    ensures forall j :: 0 <= j < i ==> recs[j].id != id
    decreases |recs|
  {
    if |recs| == 0 then 0
    else if recs[0].id == id then 0
    else 1 + FirstIndex(recs[1..], id)
  }

  /** The registry's keys are exactly the ids of the records. */
  lemma {:induction false} RegistryKeys(recs: seq<AccountRecord>)
    ensures forall id :: id in BuildRegistry(recs).accounts <==> exists i :: 0 <= i < |recs| && recs[i].id == id
    decreases |recs|
  {
    if |recs| > 0 {
      var init := recs[..|recs| - 1];
      var last := recs[|recs| - 1];
      RegistryKeys(init);
      var prev := BuildRegistry(init);
      assert BuildRegistry(recs) == Register(prev, last);
      forall id | exists i :: 0 <= i < |recs| && recs[i].id == id
        ensures id in BuildRegistry(recs).accounts
      {
        var i :| 0 <= i < |recs| && recs[i].id == id;
        if i < |recs| - 1 {
          assert init[i].id == id;
        }
      }
      forall id | id in BuildRegistry(recs).accounts
        ensures exists i :: 0 <= i < |recs| && recs[i].id == id
      {
        if id in prev.accounts {
          var i :| 0 <= i < |init| && init[i].id == id;
          assert recs[i].id == id;
        } else {
          assert recs[|recs| - 1].id == id;
        }
      }
    }
  }

  /** Each id holds the account built from the LAST record with that id:
      a repeated id is silently overwritten. */
  lemma {:induction false} LastWriteWins(recs: seq<AccountRecord>, i: nat)
    requires i < |recs|
    requires forall j :: i < j < |recs| ==> recs[j].id != recs[i].id
    ensures recs[i].id in BuildRegistry(recs).accounts
    ensures BuildRegistry(recs).accounts[recs[i].id] == FromRecord(recs[i])
    decreases |recs|
  {
    var init := recs[..|recs| - 1];
    var last := recs[|recs| - 1];
    assert BuildRegistry(recs) == Register(BuildRegistry(init), last);
    if i < |recs| - 1 {
      assert init[i] == recs[i];
      forall j | i < j < |init| ensures init[j].id != init[i].id {
        assert init[j] == recs[j];
      }
      LastWriteWins(init, i);
    }
  }

  /** Keys are listed in the order of their first appearance in the
      document: a later duplicate does not move its id. */
  lemma {:induction false} RegistryOrder(recs: seq<AccountRecord>)
    ensures var order := BuildRegistry(recs).order;
            && (forall i :: 0 <= i < |order| ==> FirstIndex(recs, order[i]) < |recs|)
            && (forall i, j :: 0 <= i < j < |order| ==> FirstIndex(recs, order[i]) < FirstIndex(recs, order[j]))
    decreases |recs|
  {
    if |recs| > 0 {
      var init := recs[..|recs| - 1];
      var last := recs[|recs| - 1];
      RegistryOrder(init);
      RegistryKeys(init);
      var prev := BuildRegistry(init).order;
      forall k | 0 <= k < |prev|
        ensures FirstIndex(recs, prev[k]) == FirstIndex(init, prev[k]) < |init|
      {
        assert prev[k] in BuildRegistry(init).accounts;
        FirstIndexPrefix(recs, prev[k]);
      }
      if last.id !in BuildRegistry(init).accounts {
        assert BuildRegistry(recs).order == prev + [last.id];
        assert forall i :: 0 <= i < |init| ==> init[i].id != last.id;
        FirstIndexPrefix(recs, last.id);
        SnocIncreasing(prev, last.id, id => FirstIndex(recs, id));
      }
    }
  }

  /** Appending an element ranked above all others keeps the ranks
      strictly increasing. */
  lemma SnocIncreasing<T>(s: seq<T>, x: T, rank: T -> int)
    requires forall i, j :: 0 <= i < j < |s| ==> rank(s[i]) < rank(s[j])
    requires forall i :: 0 <= i < |s| ==> rank(s[i]) < rank(x)
    ensures forall i, j :: 0 <= i < j < |s + [x]| ==> rank((s + [x])[i]) < rank((s + [x])[j])
  {
    forall i, j | 0 <= i < j < |s + [x]|
      ensures rank((s + [x])[i]) < rank((s + [x])[j])
    {
      assert (s + [x])[i] == s[i];
    }
  }

  /** Dropping the last record does not move an id's first occurrence when
      the id occurs earlier; otherwise the first occurrence is the last one. */
  lemma {:induction false} FirstIndexPrefix(recs: seq<AccountRecord>, id: string)
    requires |recs| > 0
    ensures var f := FirstIndex(recs[..|recs| - 1], id);
            f < |recs| - 1 ==> FirstIndex(recs, id) == f
    ensures FirstIndex(recs[..|recs| - 1], id) == |recs| - 1 && recs[|recs| - 1].id == id ==>
              FirstIndex(recs, id) == |recs| - 1
    decreases |recs|
  {
    if |recs| > 1 && recs[0].id != id {
      assert recs[1..][..|recs| - 2] == recs[..|recs| - 1][1..];
      FirstIndexPrefix(recs[1..], id);
    }
  }

  /** `accountDb[id].used = True`. */
  function MarkUsed(reg: Registry, id: string): (r: Registry)
    requires id in reg.accounts
  {
    Registry(reg.order, reg.accounts[id := reg.accounts[id].(used := true)])
  }

  /** `after` is `before` with `used` set on the accounts in `ids` and
      nothing else changed. */
  predicate UsedAdded(before: Registry, after: Registry, ids: set<string>) {
    && after.order == before.order
    && after.accounts.Keys == before.accounts.Keys
    && forall id :: id in before.accounts ==>
         after.accounts[id] == before.accounts[id].(used := before.accounts[id].used || id in ids)
  }

  /** Marking an account used changes exactly its flag. */
  lemma MarkUsedAdds(reg: Registry, id: string)
    requires Valid(reg) && id in reg.accounts
    ensures Valid(MarkUsed(reg, id))
    ensures UsedAdded(reg, MarkUsed(reg, id), {id})
    ensures MarkUsed(reg, id).accounts[id].used
  {
  }

  /** Used flags added in two steps are the union of both steps. */
  lemma UsedAddedChain(a: Registry, b: Registry, c: Registry, x: set<string>, y: set<string>)
    requires UsedAdded(a, b, x) && UsedAdded(b, c, y)
    ensures UsedAdded(a, c, x + y)
  {
  }

  /** Adding used flags keeps the registry well formed and changes nothing
      the parent walk looks at. */
  lemma UsedAddedShape(a: Registry, b: Registry, x: set<string>)
    requires Valid(a) && UsedAdded(a, b, x)
    ensures Valid(b)
    ensures SameShape(a.accounts, b.accounts)
  {
  }

  /** Number of non-ROOT ancestors the full-name walk visits from `a`, when
      it stops within `fuel` steps. The walk stops at an account without a
      parent, at a parent missing from the registry, and at a ROOT parent. */
  function ChainLength(accounts: map<string, Account>, a: Account, fuel: nat): Option<nat>
    decreases fuel
  {
    match a.parent
    case None => Some(0)
    case Some(p) =>
      if p !in accounts || accounts[p].accountType == RootType then Some(0)
      else if fuel == 0 then None
      else
        match ChainLength(accounts, accounts[p], fuel - 1)
        case None => None
        case Some(h) => Some(h + 1)
  }

  /** The ids of the non-ROOT ancestors the full-name walk visits from `a`,
      outermost first, when it stops within `fuel` steps. The walk stops at
      the same places as `ChainLength`. */
  function Ancestors(accounts: map<string, Account>, a: Account, fuel: nat): (r: Option<seq<string>>)
    ensures r.Some? <==> ChainLength(accounts, a, fuel).Some?
    ensures r.Some? ==> |r.value| == ChainLength(accounts, a, fuel).value
    ensures r.Some? ==> forall i :: 0 <= i < |r.value| ==> r.value[i] in accounts
    decreases fuel
  {
    match a.parent
    case None => Some([])
    case Some(p) =>
      if p !in accounts || accounts[p].accountType == RootType then Some([])
      else if fuel == 0 then None
      else
        match Ancestors(accounts, accounts[p], fuel - 1)
        case None => None
        case Some(above) => Some(above + [p])
  }

  /** The account where the walk from `a` stops: the outermost non-ROOT
      ancestor, or `a` itself when it has none. */
  function Top(accounts: map<string, Account>, a: Account, ancestors: seq<string>): Account
    requires forall i :: 0 <= i < |ancestors| ==> ancestors[i] in accounts
  {
    if |ancestors| == 0 then a else accounts[ancestors[0]]
  }

  /** The names of the accounts `ids`, in order. */
  function NamesOf(accounts: map<string, Account>, ids: seq<string>): (r: seq<string>)
    requires forall i :: 0 <= i < |ids| ==> ids[i] in accounts
    ensures |r| == |ids|
    decreases |ids|
  {
    if |ids| == 0 then []
    else NamesOf(accounts, ids[..|ids| - 1]) + [accounts[ids[|ids| - 1]].name]
  }

  /** No parent cycle: from every registered account the walk stops within
      as many steps as there are accounts. The source does not check this;
      a cycle makes it recurse until Python gives up. */
  predicate Acyclic(accounts: map<string, Account>) {
    forall id :: id in accounts ==> ChainLength(accounts, accounts[id], |accounts|).Some?
  }

  /** More fuel does not change a walk that already stopped. */
  lemma {:induction false} ChainLengthMore(accounts: map<string, Account>, a: Account, f: nat, g: nat)
    requires ChainLength(accounts, a, f).Some? && f <= g
    ensures ChainLength(accounts, a, g) == ChainLength(accounts, a, f)
    decreases f
  {
    match a.parent
    case None =>
    case Some(p) =>
      if p in accounts && accounts[p].accountType != RootType {
        ChainLengthMore(accounts, accounts[p], f - 1, g - 1);
      }
  }

  /** The walk from a non-ROOT parent is one step shorter. */
  lemma ParentChainShorter(accounts: map<string, Account>, id: string, p: string)
    requires Acyclic(accounts) && id in accounts
    requires accounts[id].parent == Some(p) && p in accounts && accounts[p].accountType != RootType
    ensures ChainLength(accounts, accounts[p], |accounts|).Some?
    ensures ChainLength(accounts, accounts[p], |accounts|).value
            < ChainLength(accounts, accounts[id], |accounts|).value
  {
    var n := |accounts|;
    assert ChainLength(accounts, accounts[id], n).Some?;
    ChainLengthMore(accounts, accounts[p], n - 1, n);
  }

  /** `Account.fullName`: the names of the non-ROOT ancestors and of the
      account itself, joined by `:`. A parent id missing from the registry
      is a lookup failure. */
  function FullName(accounts: map<string, Account>, id: string): (r: Result<string, Error>)
    requires Acyclic(accounts) && id in accounts
    ensures r.Ok? ==> |accounts[id].name| <= |r.value|
                      && r.value[|r.value| - |accounts[id].name|..] == accounts[id].name
    ensures r.Err? ==> r.error.MissingAccount? && r.error.id !in accounts
    decreases ChainLength(accounts, accounts[id], |accounts|).value
  {
    var a := accounts[id];
    match a.parent
    case None => Ok(a.name)
    case Some(p) =>
      if p !in accounts then Err(MissingAccount(p))
      else if accounts[p].accountType == RootType then Ok(a.name)
      else
        ParentChainShorter(accounts, id, p);
        var prefix :- FullName(accounts, p);
        Ok(prefix + ":" + a.name)
  }

  /** More fuel does not change a walk that already stopped. */
  lemma {:induction false} AncestorsMore(accounts: map<string, Account>, a: Account, f: nat, g: nat)
    requires Ancestors(accounts, a, f).Some? && f <= g
    ensures Ancestors(accounts, a, g) == Ancestors(accounts, a, f)
    decreases f
  {
    match a.parent
    case None =>
    case Some(p) =>
      if p in accounts && accounts[p].accountType != RootType {
        AncestorsMore(accounts, accounts[p], f - 1, g - 1);
      }
  }

  /** `fullName` against the walk: it fails exactly when the account where
      the walk stops names a parent that is not registered, and then with
      the lookup failure of that parent id. Otherwise it is the names of the
      non-ROOT ancestors, outermost first, and of the account itself, joined
      by `:`. */
  lemma {:induction false} FullNameWalk(accounts: map<string, Account>, id: string)
    requires Acyclic(accounts) && id in accounts
    ensures var anc := Ancestors(accounts, accounts[id], |accounts|);
            && anc.Some?
            && var top := Top(accounts, accounts[id], anc.value);
               var r := FullName(accounts, id);
               && (r.Err? <==> top.parent.Some? && top.parent.value !in accounts)
               && (r.Err? ==> r.error == MissingAccount(top.parent.value))
               && (r.Ok? ==> r.value == Join(NamesOf(accounts, anc.value) + [accounts[id].name], ":"))
    decreases ChainLength(accounts, accounts[id], |accounts|).value
  {
    var a := accounts[id];
    var n := |accounts|;
    match a.parent
    case None =>
    case Some(p) =>
      if p in accounts && accounts[p].accountType != RootType {
        ParentChainShorter(accounts, id, p);
        FullNameWalk(accounts, p);
        var above := Ancestors(accounts, accounts[p], n).value;
        AncestorsMore(accounts, accounts[p], n - 1, n);
        assert Ancestors(accounts, a, n) == Some(above + [p]);
        WalkStep(accounts, a, p, above);
      }
  }

  /** One step of the walk: appending the parent keeps the stopping
      account and adds the parent's name before the account's own. */
  lemma WalkStep(accounts: map<string, Account>, a: Account, p: string, above: seq<string>)
    requires p in accounts
    requires forall i :: 0 <= i < |above| ==> above[i] in accounts
    ensures Top(accounts, a, above + [p]) == Top(accounts, accounts[p], above)
    ensures NamesOf(accounts, above + [p]) + [a.name]
            == (NamesOf(accounts, above) + [accounts[p].name]) + [a.name]
    ensures Join((NamesOf(accounts, above) + [accounts[p].name]) + [a.name], ":")
            == Join(NamesOf(accounts, above) + [accounts[p].name], ":") + ":" + a.name
  {
    var ids := above + [p];
    assert ids[..|ids| - 1] == above;
    if |above| > 0 {
      assert ids[0] == above[0];
    }
    JoinSnoc(NamesOf(accounts, above) + [accounts[p].name], a.name, ":");
  }

  /** With colon-free names, the full name has one `:` per non-ROOT
      ancestor: every ancestor up to the ROOT contributes one component. */
  lemma {:induction false} FullNameComponents(accounts: map<string, Account>, id: string)
    requires Acyclic(accounts) && id in accounts
    requires forall k :: k in accounts ==> ':' !in accounts[k].name
    requires FullName(accounts, id).Ok?
    ensures Count(FullName(accounts, id).value, ':') == ChainLength(accounts, accounts[id], |accounts|).value
    decreases ChainLength(accounts, accounts[id], |accounts|).value
  {
    var a := accounts[id];
    CountZeroIffAbsent(a.name, ':');
    match a.parent
    case None =>
    case Some(p) =>
      if accounts[p].accountType != RootType {
        ParentChainShorter(accounts, id, p);
        FullNameComponents(accounts, p);
        var prefix := FullName(accounts, p).value;
        ChainLengthMore(accounts, accounts[p], |accounts| - 1, |accounts|);
        CountAppend(prefix + ":", a.name, ':');
        CountAppend(prefix, ":", ':');
      }
  }

  /** A full name is made of account names and separators only: when no
      name contains `c`, neither does the full name (unless `c` is `:`). */
  lemma {:induction false} FullNameAvoids(accounts: map<string, Account>, id: string, c: char)
    requires Acyclic(accounts) && id in accounts && c != ':'
    requires forall k :: k in accounts ==> c !in accounts[k].name
    requires FullName(accounts, id).Ok?
    ensures c !in FullName(accounts, id).value
    decreases ChainLength(accounts, accounts[id], |accounts|).value
  {
    match accounts[id].parent
    case None =>
    case Some(p) =>
      if accounts[p].accountType != RootType {
        ParentChainShorter(accounts, id, p);
        FullNameAvoids(accounts, p, c);
      }
  }

  /** Two registries that differ only in `used` flags. */
  predicate SameShape(a: map<string, Account>, b: map<string, Account>) {
    && a.Keys == b.Keys
    && forall id :: id in a ==> b[id].(used := a[id].used) == a[id]
  }

  /** Used flags play no part in the parent walk. */
  lemma {:induction false} ChainLengthShape(a: map<string, Account>, b: map<string, Account>, x: Account, y: Account, fuel: nat)
    requires SameShape(a, b) && y.(used := x.used) == x
    ensures ChainLength(b, y, fuel) == ChainLength(a, x, fuel)
    decreases fuel
  {
    match x.parent
    case None =>
    case Some(p) =>
      if p in a && a[p].accountType != RootType && fuel > 0 {
        ChainLengthShape(a, b, a[p], b[p], fuel - 1);
      }
  }

  /** Marking accounts used keeps the registry acyclic and every full name. */
  lemma ShapePreserved(a: map<string, Account>, b: map<string, Account>)
    requires SameShape(a, b) && Acyclic(a)
    ensures Acyclic(b)
    ensures forall id :: id in a ==> FullName(b, id) == FullName(a, id)
  {
    forall id | id in b
      ensures ChainLength(b, b[id], |b|).Some?
    {
      ChainLengthShape(a, b, a[id], b[id], |a|);
      assert |a| == |b| by { assert a.Keys == b.Keys; }
    }
    forall id | id in a
      ensures FullName(b, id) == FullName(a, id)
    {
      FullNameShape(a, b, id);
    }
  }

  lemma {:induction false} FullNameShape(a: map<string, Account>, b: map<string, Account>, id: string)
    requires SameShape(a, b) && Acyclic(a) && Acyclic(b) && id in a
    ensures FullName(b, id) == FullName(a, id)
    decreases ChainLength(a, a[id], |a|).value
  {
    match a[id].parent
    case None =>
    case Some(p) =>
      if p in a && a[p].accountType != RootType {
        ParentChainShorter(a, id, p);
        FullNameShape(a, b, p);
      }
  }

  /** `Account.toLedgerFormat` once the full name is known: an `account`
      directive with the full name, then an indented note with the
      description and the account type. */
  function AccountText(full: string, a: Account, indent: nat): (r: string)
    ensures '\n' !in full && '\n' !in a.description && '\n' !in a.accountType ==>
              SplitOn(r, '\n') == [Spaces(indent) + "account " + full,
                                   Spaces(indent) + "  note " + a.description + " (type: " + a.accountType + ")",
                                   ""]
  {
    var sp := Spaces(indent);
    SpacesAvoid(indent, '\n');
    TwoLineBlock(sp + "account " + full, sp + "  note " + a.description + " (type: " + a.accountType + ")")
  }

  /** `Account.toLedgerFormat`: fails exactly when the full name does. */
  function AccountBlock(accounts: map<string, Account>, id: string, indent: nat): (r: Result<string, Error>)
    requires Acyclic(accounts) && id in accounts
    ensures r.Ok? <==> FullName(accounts, id).Ok?
    ensures r.Err? ==> r.error == FullName(accounts, id).error
    ensures r.Ok? ==> r.value == AccountText(FullName(accounts, id).value, accounts[id], indent)
  {
    var full := FullName(accounts, id);
    if full.Err? then Err(full.error)
    else Ok(AccountText(full.value, accounts[id], indent))
  }

  /** The ids, in registry order, of the accounts some split referenced. */
  function UsedIds(reg: Registry): (ids: seq<string>)
    requires Valid(reg)
    ensures forall id :: id in ids <==> id in reg.accounts && reg.accounts[id].used
    ensures IsSubsequence(ids, reg.order)
  {
    UsedAmong(reg.order, reg.accounts)
  }

  /** The elements of `order` that are registered and used, in order. */
  function UsedAmong(order: seq<string>, accounts: map<string, Account>): (ids: seq<string>)
    ensures forall id :: id in ids <==> id in order && id in accounts && accounts[id].used
    ensures IsSubsequence(ids, order)
    decreases |order|
  {
    if |order| == 0 then []
    else
      var rest := UsedAmong(order[1..], accounts);
      if order[0] in accounts && accounts[order[0]].used then
        assert order == [order[0]] + order[1..];
        [order[0]] + rest
      else
        rest
  }

  /** `s` can be obtained from `t` by deleting elements, keeping the order. */
  predicate IsSubsequence(s: seq<string>, t: seq<string>)
    decreases |t|
  {
    if |s| == 0 then true
    else if |t| == 0 then false
    else if s[0] == t[0] then IsSubsequence(s[1..], t[1..])
    else IsSubsequence(s, t[1..])
  }

  /** A registry `ROOT -> Assets -> Checking`. */
  function ExampleRegistry(): map<string, Account> {
    map[
      "r" := Account("r", "Root Account", "", RootType, None, None, false),
      "a" := Account("a", "Assets", "", "ASSET", Some("r"), Some("USD"), false),
      "c" := Account("c", "Checking", "", "BANK", Some("a"), Some("USD"), false)
    ]
  }

  /** The example's parent links end at the ROOT. */
  lemma ExampleAcyclic()
    ensures Acyclic(ExampleRegistry())
  {
    var m := ExampleRegistry();
    assert |m| == 3 by {
      assert m.Keys == {"r", "a", "c"};
    }
    assert ChainLength(m, m["r"], 3) == Some(0);
    assert ChainLength(m, m["a"], 3) == Some(0);
    assert ChainLength(m, m["a"], 2) == Some(0);
    assert ChainLength(m, m["c"], 3) == Some(1);
  }

  /** The ROOT is elided: `Checking` under `Assets` under the ROOT is
      `Assets:Checking`, and a top-level account is just its name. */
  lemma FullNameExample()
    ensures Acyclic(ExampleRegistry())
    ensures FullName(ExampleRegistry(), "c") == Ok("Assets:Checking")
    ensures FullName(ExampleRegistry(), "r") == Ok("Root Account")
  {
    ExampleAcyclic();
    var m := ExampleRegistry();
    assert FullName(m, "a") == Ok("Assets");
    assert m["c"].parent == Some("a") && m["a"].accountType != RootType;
    assert FullName(m, "c") == Ok("Assets" + ":" + "Checking");
    assert "Assets" + ":" + "Checking" == "Assets:Checking";
  }
}

=== FILE: commodities.dfy ===
/** Commodities: the currencies and securities a book declares. */
module Commodities {
  import opened Text

  /** A commodity as read from the document: `space` is its namespace (for
      example `ISO4217`), `id` its symbol and `name` its full name. A field
      missing from the document is the empty string. */
  datatype Commodity = Commodity(space: string, id: string, name: string)

  /** `Commodity.toLedgerFormat`: a `commodity` directive declaring the
      symbol, then an indented note naming it with its `space:id` pair. */
  function CommodityBlock(c: Commodity, indent: nat): (r: string)
    ensures |r| > 0 && r[|r| - 1] == '\n'
    ensures '\n' !in c.space && '\n' !in c.id && '\n' !in c.name ==>
              SplitOn(r, '\n') == [Spaces(indent) + "commodity " + c.id,
                                   Spaces(indent) + "  note " + c.name + " (" + c.space + ":" + c.id + ")",
                                   ""]
  {
    var sp := Spaces(indent);
    var declaration := sp + "commodity " + c.id;
    var note := sp + "  note " + c.name + " (" + c.space + ":" + c.id + ")";
    TwoLineBlock(declaration, note)
  }
}

=== FILE: convert.dfy ===
/** `convert2Ledger` once the document is read: build the commodity list,
    the account registry and the transactions in document order, then print
    three sections separated by a blank line: every commodity, every account
    some split refers to, and every transaction in date order. */
module Convert {
  import opened Wrappers
  import opened Errors
  import opened Text
  import opened Commodities
  import opened Accounts
  import opened Splits
  import opened Transactions
  import opened StableSort

  /** The book element of a GnuCash document, in document order. */
  datatype Document = Document(commodities: seq<Commodity>, accounts: seq<AccountRecord>, transactions: seq<RawTransaction>)

  /** What loading the document builds. */
  datatype Book = Book(commodities: seq<Commodity>, registry: Registry, transactions: seq<Transaction>)

  /** The accounts and transactions as constructed: every account registered
      in document order, then every transaction with its splits marking
      their accounts used. */
  function Load(doc: Document): (r: Result<Book, Error>)
    ensures r.Ok? ==> Valid(r.value.registry)
  {
    var (reg, txns) :- NewTransactions(BuildRegistry(doc.accounts), doc.transactions);
    Ok(Book(doc.commodities, reg, txns))
  }

  /** Loading succeeds exactly when every split of every transaction can be
      constructed, and otherwise fails with the first split's error. */
  lemma LoadFails(doc: Document)
    ensures var keys := BuildRegistry(doc.accounts).accounts.Keys;
            && (Load(doc).Ok? <==> AllTransactionsOk(keys, doc.transactions))
            && (Load(doc).Err? ==> FirstBadTransaction(keys, doc.transactions) < |doc.transactions|
                                   && Load(doc).error == FirstError(keys, doc.transactions))
  {
    NewTransactionsFails(BuildRegistry(doc.accounts), doc.transactions);
  }

  /** The loaded registry is the declared one, in the same order, with
      exactly the accounts some split refers to marked used. */
  lemma LoadRegistry(doc: Document)
    requires Load(doc).Ok?
    ensures var reg0 := BuildRegistry(doc.accounts);
            var reg := Load(doc).value.registry;
            && reg.order == reg0.order
            && SameShape(reg0.accounts, reg.accounts)
            && forall id :: id in reg.accounts ==>
                 (reg.accounts[id].used <==> id in ReferencedByAll(doc.transactions))
  {
    var reg0 := BuildRegistry(doc.accounts);
    BuildRegistryUnused(doc.accounts);
    NewTransactionsUsed(reg0, doc.transactions);
    UsedAddedShape(reg0, Load(doc).value.registry, ReferencedByAll(doc.transactions));
  }

  /** The loaded transactions correspond one to one, in document order, to
      the document's, and the commodities are kept as declared. */
  lemma LoadTransactions(doc: Document)
    requires Load(doc).Ok?
    ensures var book := Load(doc).value;
            && book.commodities == doc.commodities
            && |book.transactions| == |doc.transactions|
            && forall i :: 0 <= i < |doc.transactions| ==> Constructed(doc.transactions[i], book.transactions[i])
  {
    NewTransactionsConstructed(BuildRegistry(doc.accounts), doc.transactions);
  }

  /** The commodity blocks, one per commodity in document order. */
  function CommodityBlocks(cs: seq<Commodity>): (r: seq<string>)
    ensures |r| == |cs| && forall i :: 0 <= i < |cs| ==> r[i] == CommodityBlock(cs[i], 0)
  {
    seq(|cs|, i requires 0 <= i < |cs| => CommodityBlock(cs[i], 0))
  }

  /** The account blocks, one per used account in registry order. */
  function AccountSection(reg: Registry): (r: Result<seq<string>, Error>)
    requires Valid(reg) && Acyclic(reg.accounts)
    ensures var ids := UsedIds(reg);
            r.Ok? <==> forall i :: 0 <= i < |ids| ==> FullName(reg.accounts, ids[i]).Ok?
    ensures var ids := UsedIds(reg);
            r.Ok? ==> && |r.value| == |ids|
                      && forall i :: 0 <= i < |ids| ==>
                           r.value[i] == AccountBlock(reg.accounts, ids[i], 0).value
  {
    var ids := UsedIds(reg);
    var block := id => if id in reg.accounts then AccountBlock(reg.accounts, id, 0) else Err(MissingAccount(id));
    var rs := Map(ids, block);
    assert forall i :: 0 <= i < |ids| ==> rs[i] == AccountBlock(reg.accounts, ids[i], 0);
    Collect(rs)
  }

  /** The transaction blocks, one per transaction in the given order. */
  function TransactionSection(accounts: map<string, Account>, ts: seq<Transaction>): (r: Result<seq<string>, Error>)
    requires Acyclic(accounts)
    ensures r.Ok? <==> forall i :: 0 <= i < |ts| ==> TransactionBlock(accounts, ts[i], 0).Ok?
    ensures r.Ok? ==> && |r.value| == |ts|
                      && forall i :: 0 <= i < |ts| ==> r.value[i] == TransactionBlock(accounts, ts[i], 0).value
  {
    var rs := Map(ts, t => TransactionBlock(accounts, t, 0));
    assert forall i :: 0 <= i < |ts| ==> rs[i] == TransactionBlock(accounts, ts[i], 0);
    Collect(rs)
  }

  /** The sort key: the posting date. */
  function ByDate(t: Transaction): int {
    t.date.instant
  }

  /** The output: the commodity blocks, the account blocks and the
      transaction blocks sorted by date, each section joined by newlines,
      and a blank line between sections. */
  function Assemble(book: Book): (r: Result<string, Error>)
    requires Valid(book.registry) && Acyclic(book.registry.accounts)
    ensures r.Ok? <==> && AccountSection(book.registry).Ok?
                       && TransactionSection(book.registry.accounts, SortBy(book.transactions, ByDate)).Ok?
    ensures r.Ok? ==>
              r.value == Join(CommodityBlocks(book.commodities), "\n") + "\n\n"
                         + Join(AccountSection(book.registry).value, "\n") + "\n\n"
                         + Join(TransactionSection(book.registry.accounts, SortBy(book.transactions, ByDate)).value, "\n")
  {
    var accountBlocks :- AccountSection(book.registry);
    var transactionBlocks :- TransactionSection(book.registry.accounts, SortBy(book.transactions, ByDate));
    Ok(Join(CommodityBlocks(book.commodities), "\n") + "\n\n"
       + Join(accountBlocks, "\n") + "\n\n"
       + Join(transactionBlocks, "\n"))
  }

  /** Every id in `ids` is registered and resolves to a full name. */
  predicate Resolves(accounts: map<string, Account>, ids: set<string>)
    requires Acyclic(accounts)
  {
    forall id :: id in ids ==> id in accounts && FullName(accounts, id).Ok?
  }

  /** The output read back line by line: the lines of the commodity blocks,
      an empty line, the lines of the account blocks, an empty line, and the
      lines of the transaction blocks in date order. */
  lemma AssembleLines(book: Book)
    requires Valid(book.registry) && Acyclic(book.registry.accounts)
    requires Assemble(book).Ok?
    ensures SplitOn(Assemble(book).value, '\n')
            == LinesOf(CommodityBlocks(book.commodities), '\n') + [""]
               + LinesOf(AccountSection(book.registry).value, '\n') + [""]
               + LinesOf(TransactionSection(book.registry.accounts, SortBy(book.transactions, ByDate)).value, '\n')
  {
    var cs := CommodityBlocks(book.commodities);
    var accs := AccountSection(book.registry).value;
    var ts := TransactionSection(book.registry.accounts, SortBy(book.transactions, ByDate)).value;
    SplitOnJoinLines(cs, '\n');
    SplitOnJoinLines(accs, '\n');
    SplitOnJoinLines(ts, '\n');
    BlankLineSeparated(Join(cs, "\n"), Join(accs, "\n"), Join(ts, "\n"));
  }

  /** When the conversion succeeds: every split can be constructed, and
      every account a split refers to has a resolvable full name. */
  predicate Convertible(doc: Document)
    requires Acyclic(BuildRegistry(doc.accounts).accounts)
  {
    var reg := BuildRegistry(doc.accounts);
    && AllTransactionsOk(reg.accounts.Keys, doc.transactions)
    && Resolves(reg.accounts, ReferencedByAll(doc.transactions))
  }

  /** `convert2Ledger` from the parsed document to the output text. The
      registry the document declares must be free of parent cycles. */
  function Convert(doc: Document): (r: Result<string, Error>)
    requires Acyclic(BuildRegistry(doc.accounts).accounts)
    ensures r.Ok? <==> Convertible(doc)
    ensures r.Ok? ==> Load(doc).Ok? && var book := Load(doc).value;
                      Acyclic(book.registry.accounts) && r == Assemble(book)
  {
    LoadFails(doc);
    var book :- Load(doc);
    LoadRegistry(doc);
    ShapePreserved(BuildRegistry(doc.accounts).accounts, book.registry.accounts);
    ConvertibleIff(doc);
    Assemble(book)
  }

  /** Every split of a loaded transaction refers to a referenced account. */
  lemma SplitReferenced(doc: Document, t: Transaction, k: int)
    requires Load(doc).Ok?
    requires t in Load(doc).value.transactions
    requires 0 <= k < |t.splits|
    ensures t.splits[k].accountId in ReferencedByAll(doc.transactions)
  {
    var ts := Load(doc).value.transactions;
    LoadTransactions(doc);
    var i :| 0 <= i < |ts| && ts[i] == t;
    assert Constructed(doc.transactions[i], t);
    assert Converted(doc.transactions[i].splits[k], t.splits[k]);
  }

  /** The account section renders exactly when every account marked used
      resolves to a full name; the marks do not change full names. */
  lemma AccountSectionIff(before: map<string, Account>, reg: Registry, used: set<string>)
    requires Valid(reg) && Acyclic(before) && SameShape(before, reg.accounts)
    requires used <= before.Keys
    requires forall id :: id in reg.accounts ==> (reg.accounts[id].used <==> id in used)
    ensures Acyclic(reg.accounts)
    ensures AccountSection(reg).Ok? <==> Resolves(before, used)
  {
    ResolvesShape(before, reg.accounts, used);
    AccountSectionResolves(reg, used);
  }

  /** Used flags play no part in resolving full names. */
  lemma ResolvesShape(a: map<string, Account>, b: map<string, Account>, ids: set<string>)
    requires Acyclic(a) && SameShape(a, b)
    ensures Acyclic(b) && (Resolves(a, ids) <==> Resolves(b, ids))
  {
    ShapePreserved(a, b);
  }

  /** The account section renders exactly when every account marked used
      resolves. */
  lemma AccountSectionResolves(reg: Registry, used: set<string>)
    requires Valid(reg) && Acyclic(reg.accounts) && used <= reg.accounts.Keys
    requires forall id :: id in reg.accounts ==> (reg.accounts[id].used <==> id in used)
    ensures AccountSection(reg).Ok? <==> Resolves(reg.accounts, used)
  {
    var ids := UsedIds(reg);
    var resolves := id => id in reg.accounts && FullName(reg.accounts, id).Ok?;
    assert AccountSection(reg).Ok? <==> forall i :: 0 <= i < |ids| ==> resolves(ids[i]);
    EveryIndexIff(ids, resolves);
    assert forall id :: id in used <==> id in ids;
  }

  /** A property of every element is a property at every index. */
  lemma EveryIndexIff<T>(s: seq<T>, p: T -> bool)
    ensures (forall i :: 0 <= i < |s| ==> p(s[i])) <==> (forall x :: x in s ==> p(x))
  {
  }

  /** After a successful load, every referenced account is registered. */
  lemma AllReferencedRegistered(doc: Document)
    requires Load(doc).Ok?
    ensures ReferencedByAll(doc.transactions) <= BuildRegistry(doc.accounts).accounts.Keys
  {
    var keys := BuildRegistry(doc.accounts).accounts.Keys;
    LoadFails(doc);
    forall id | id in ReferencedByAll(doc.transactions)
      ensures id in keys
    {
      var i, k :| 0 <= i < |doc.transactions| && 0 <= k < |doc.transactions[i].splits|
                  && doc.transactions[i].splits[k].accountId == id;
      assert AllSplitsOk(keys, doc.transactions[i].splits);
      assert SplitOk(keys, doc.transactions[i].splits[k]);
    }
  }

  /** The transaction section renders exactly when every referenced
      account resolves. */
  lemma TransactionSectionIff(doc: Document)
    requires Acyclic(BuildRegistry(doc.accounts).accounts)
    requires Load(doc).Ok?
    ensures var reg0 := BuildRegistry(doc.accounts);
            var book := Load(doc).value;
            Acyclic(book.registry.accounts) &&
            (Resolves(reg0.accounts, ReferencedByAll(doc.transactions)) ==>
               TransactionSection(book.registry.accounts, SortBy(book.transactions, ByDate)).Ok?)
  {
    var reg0 := BuildRegistry(doc.accounts);
    var book := Load(doc).value;
    var accounts := book.registry.accounts;
    LoadRegistry(doc);
    ShapePreserved(reg0.accounts, accounts);
    var sorted := SortBy(book.transactions, ByDate);
    if Resolves(reg0.accounts, ReferencedByAll(doc.transactions)) {
      forall j | 0 <= j < |sorted|
        ensures TransactionBlock(accounts, sorted[j], 0).Ok?
      {
        var t := sorted[j];
        assert t in multiset(sorted);
        assert t in book.transactions;
        forall k | 0 <= k < |t.splits|
          ensures SplitLine(accounts, t.splits[k], t.currency, 0).Ok?
        {
          SplitReferenced(doc, t, k);
        }
      }
    }
  }

  /** Assembling succeeds exactly when every account marked used resolves,
      provided the transaction section renders whenever they all do. */
  lemma AssembleIff(before: map<string, Account>, book: Book, refs: set<string>)
    requires Valid(book.registry) && Acyclic(before) && Acyclic(book.registry.accounts)
    requires SameShape(before, book.registry.accounts) && refs <= before.Keys
    requires forall id :: id in book.registry.accounts ==> (book.registry.accounts[id].used <==> id in refs)
    requires Resolves(before, refs) ==>
               TransactionSection(book.registry.accounts, SortBy(book.transactions, ByDate)).Ok?
    ensures Assemble(book).Ok? <==> Resolves(before, refs)
  {
    AccountSectionIff(before, book.registry, refs);
  }

  /** The conversion succeeds exactly when every split can be constructed
      and every account a split refers to resolves to a full name. */
  lemma ConvertibleIff(doc: Document)
    requires Acyclic(BuildRegistry(doc.accounts).accounts)
    ensures Load(doc).Ok? ==>
              var book := Load(doc).value;
              Acyclic(book.registry.accounts) &&
              (Assemble(book).Ok? <==> Convertible(doc))
  {
    if Load(doc).Ok? {
      var reg0 := BuildRegistry(doc.accounts);
      var book := Load(doc).value;
      var refs := ReferencedByAll(doc.transactions);
      LoadFails(doc);
      LoadRegistry(doc);
      AllReferencedRegistered(doc);
      ShapePreserved(reg0.accounts, book.registry.accounts);
      TransactionSectionIff(doc);
      AssembleIff(reg0.accounts, book, refs);
    }
  }

  /** The elements of `order` that are in `s`, in order. */
  function KeepIn(order: seq<string>, s: set<string>): (r: seq<string>)
    ensures forall id :: id in r <==> id in order && id in s
    decreases |order|
  {
    if |order| == 0 then []
    else if order[0] in s then [order[0]] + KeepIn(order[1..], s)
    else KeepIn(order[1..], s)
  }

  /** Filtering by the used flag is filtering by the set of used ids. */
  lemma {:induction false} UsedAmongKeepIn(order: seq<string>, accounts: map<string, Account>, s: set<string>)
    requires forall i :: 0 <= i < |order| ==> order[i] in accounts
    requires forall id :: id in accounts ==> (accounts[id].used <==> id in s)
    ensures UsedAmong(order, accounts) == KeepIn(order, s)
    decreases |order|
  {
    if |order| > 0 {
      UsedAmongKeepIn(order[1..], accounts, s);
    }
  }

  /** The account section lists exactly the accounts some split refers
      to, in the order the registry first saw them. */
  lemma UsedAccountsReferenced(doc: Document)
    requires Load(doc).Ok?
    ensures UsedIds(Load(doc).value.registry) == KeepIn(BuildRegistry(doc.accounts).order, ReferencedByAll(doc.transactions))
  {
    var reg := Load(doc).value.registry;
    LoadRegistry(doc);
    assert forall i :: 0 <= i < |reg.order| ==> reg.order[i] in reg.accounts;
    UsedAmongKeepIn(reg.order, reg.accounts, ReferencedByAll(doc.transactions));
  }

  /** The ids appear in the order of their first record in `recs`. */
  predicate InRecordOrder(ids: seq<string>, recs: seq<AccountRecord>) {
    forall i, j :: 0 <= i < j < |ids| ==> FirstIndex(recs, ids[i]) < FirstIndex(recs, ids[j])
  }

  /** Keeping some elements keeps their relative order. */
  lemma {:induction false} KeepInIncreasing(order: seq<string>, s: set<string>, recs: seq<AccountRecord>)
    requires InRecordOrder(order, recs)
    ensures InRecordOrder(KeepIn(order, s), recs)
    decreases |order|
  {
    if |order| > 0 {
      var tail := order[1..];
      assert InRecordOrder(tail, recs) by {
        forall i, j | 0 <= i < j < |tail| ensures FirstIndex(recs, tail[i]) < FirstIndex(recs, tail[j]) {
          assert tail[i] == order[i + 1] && tail[j] == order[j + 1];
        }
      }
      KeepInIncreasing(tail, s, recs);
      var rest := KeepIn(tail, s);
      if order[0] in s {
        var kept := KeepIn(order, s);
        assert kept == [order[0]] + rest;
        forall i, j | 0 <= i < j < |kept|
          ensures FirstIndex(recs, kept[i]) < FirstIndex(recs, kept[j])
        {
          assert kept[j] == rest[j - 1];
          if i == 0 {
            assert kept[j] in tail;
            var m :| 0 <= m < |tail| && tail[m] == kept[j];
            assert tail[m] == order[m + 1];
          } else {
            assert kept[i] == rest[i - 1];
          }
        }
      } else {
        assert KeepIn(order, s) == rest;
      }
    }
  }

  /** The used accounts are printed in the order of their first
      declaration in the document. */
  lemma UsedAccountsInDocumentOrder(doc: Document)
    requires Load(doc).Ok?
    ensures InRecordOrder(UsedIds(Load(doc).value.registry), doc.accounts)
  {
    RegistryOrder(doc.accounts);
    UsedAccountsReferenced(doc);
    KeepInIncreasing(BuildRegistry(doc.accounts).order, ReferencedByAll(doc.transactions), doc.accounts);
  }

  /** The transactions are printed in ascending date order, transactions
      with the same date in document order, and none is lost or repeated. */
  lemma TransactionsInDateOrder(book: Book)
    ensures var sorted := SortBy(book.transactions, ByDate);
            && SortedBy(sorted, ByDate)
            && multiset(sorted) == multiset(book.transactions)
            && forall k :: WithKey(sorted, ByDate, k) == WithKey(book.transactions, ByDate, k)
  {
    SortByStable(book.transactions, ByDate);
  }
}

=== FILE: dates.dfy ===
/** Posting dates. The source parses the GnuCash date text into a datetime
    (the parser is not part of this model), sorts transactions by it and
    prints it with `strftime('%Y/%m/%d')`. */
module Dates {
  import opened Wrappers
  import opened Text

  /** A parsed posting date: `instant` is the point in time the sort
      compares, and `year`, `month`, `day` are the calendar fields it
      prints. */
  datatype Timestamp = Timestamp(instant: int, year: nat, month: nat, day: nat)

  /** `n` in decimal, zero-padded to at least `w` digits (`%0wd`). */
  function Pad(n: nat, w: nat): (r: string)
    ensures AllDigits(r) && NatOf(r) == n
    ensures w > 0 && n < Pow10(w) ==> |r| == w
  {
    NatOfLeftPad(DigitsOf(n), w);
    DigitsOfLength(n, w);
    LeftPad(DigitsOf(n), w)
  }

  /** `strftime('%Y/%m/%d')`: four-digit year, two-digit month and day. */
  function FormatDate(t: Timestamp): string {
    Pad(t.year, 4) + "/" + Pad(t.month, 2) + "/" + Pad(t.day, 2)
  }

  /** Reads a `YYYY/MM/DD` date back into its calendar fields. */
  function ParseDate(s: string): Option<(nat, nat, nat)> {
    if |s| == 10 && s[4] == '/' && s[7] == '/'
       && AllDigits(s[..4]) && AllDigits(s[5..7]) && AllDigits(s[8..])
    then Some((NatOf(s[..4]), NatOf(s[5..7]), NatOf(s[8..])))
    else None
  }

  lemma ParseJoined(y: string, m: string, d: string)
    requires |y| == 4 && |m| == 2 && |d| == 2
    requires AllDigits(y) && AllDigits(m) && AllDigits(d)
    ensures ParseDate(y + "/" + m + "/" + d) == Some((NatOf(y), NatOf(m), NatOf(d)))
  {
    var s := y + "/" + m + "/" + d;
    assert s[..4] == y && s[5..7] == m && s[8..] == d;
  }

  /** The printed date is ten characters, and reading it back gives the
      calendar fields: nothing is lost or truncated. */
  lemma {:induction false} FormatDateRoundTrip(t: Timestamp)
    requires t.year < 10000 && t.month < 100 && t.day < 100
    ensures |FormatDate(t)| == 10
    ensures ParseDate(FormatDate(t)) == Some((t.year, t.month, t.day))
  {
    assert Pow10(2) == 100;
    assert Pow10(4) == 10000 by {
      assert Pow10(3) == 1000;
    }
    ParseJoined(Pad(t.year, 4), Pad(t.month, 2), Pad(t.day, 2));
  }
}

=== FILE: decimal.dfy ===
/** The decimal codec: GnuCash stores every amount as the text
    `<integer>/<scale>`, where the scale is a power of ten whose digit count
    minus one is the number of fractional digits. The codec turns it into a
    fixed-point decimal string purely by moving characters: it strips the
    sign, left-pads the magnitude with zeros, puts the sign back and inserts
    a point `n` characters from the right. Only the length of the scale text
    is ever looked at. */
module Decimal {
  import opened Wrappers
  import opened Errors
  import opened Text

  /** The two fields of `raw.split('/')`, or the error Python raises when
      unpacking a split that does not have exactly two parts. */
  function Fields(raw: string): (r: Result<(string, string), Error>)
    ensures r.Ok? <==> Count(raw, '/') == 1
    ensures r.Ok? ==> '/' !in r.value.0 && '/' !in r.value.1
    ensures r.Ok? ==> r.value.0 + "/" + r.value.1 == raw
    ensures r.Err? ==> r.error == MalformedAmount(raw)
  {
    var parts := SplitOn(raw, '/');
    if |parts| != 2 then Err(MalformedAmount(raw))
    else
      JoinSplitOn(raw, '/');
      assert Join(parts, "/") == parts[0] + "/" + Join(parts[1..], "/");
      Ok((parts[0], parts[1]))
  }

  /** The fractional-digit count `len(scale) - 1`; it is -1 for an empty scale. */
  function Precision(scale: string): int {
    |scale| - 1
  }

  predicate Negative(intPart: string) {
    |intPart| > 0 && intPart[0] == '-'
  }

  /** The integer field without its one leading minus. */
  function Magnitude(intPart: string): string {
    if Negative(intPart) then intPart[1..] else intPart
  }

  function Sign(intPart: string): string {
    if Negative(intPart) then "-" else ""
  }

  /** The sign followed by the magnitude padded to `n + 1` characters: the
      string the codec cuts in two. */
  function Signed(intPart: string, n: int): (d: string)
    ensures |d| >= n + 1
  {
    Sign(intPart) + LeftPad(Magnitude(intPart), n + 1)
  }

  /** `out` is the sign `s`, at least one digit, a point and exactly `n`
      digits, and the digits without the point are `digits`. */
  predicate PointLayout(out: string, s: string, digits: string, n: nat) {
    var k := |out| - n - 1;
    && |s| < k < |out|
    && out[..|s|] == s
    && out[k] == '.'
    && out[|s|..k] + out[k + 1..] == digits
  }

  lemma {:induction false} PointLayoutParts(out: string, s: string, digits: string, n: nat)
    requires PointLayout(out, s, digits, n)
    ensures out == s + out[|s|..|out| - n - 1] + "." + out[|out| - n..]
  {
    var k := |out| - n - 1;
    assert out == out[..|s|] + out[|s|..k] + [out[k]] + out[k + 1..];
  }

  /** The layout an exact conversion has: the sign of the integer field,
      at least one digit, a point, and exactly `n` digits after it, where the
      digits without the point are the magnitude padded to `n + 1`. */
  predicate ExactDecimal(out: string, intPart: string, n: nat) {
    PointLayout(out, Sign(intPart), LeftPad(Magnitude(intPart), n + 1), n)
  }

  /** `d` with a point inserted `n` characters from the right. */
  function PointAt(d: string, n: nat): string
    requires |d| >= n
  {
    d[..|d| - n] + "." + d[|d| - n..]
  }

  /** Inserting the point into the sign followed by at least `n + 1` digits
      gives the layout. */
  lemma {:induction false} PointAtLayout(s: string, digits: string, n: nat)
    requires |digits| >= n + 1
    ensures PointLayout(PointAt(s + digits, n), s, digits, n)
  {
    var d := s + digits;
    var k := |d| - n;
    var out := PointAt(d, n);
    assert out[..k] == d[..k];
    assert out[..|s|] == d[..|s|] == s;
    assert out[|s|..k] == d[|s|..k];
    assert out[k + 1..] == d[k..];
    assert d[|s|..k] + d[k..] == d[|s|..] == digits;
  }

  /** The body of `convertValue` after the split, exactly as the source
      writes it, with Python's slicing `intValue[:-n] + '.' + intValue[-n:]`. */
  function CutAsWritten(intPart: string, scale: string): string {
    var n := Precision(scale);
    var d := Signed(intPart, n);
    SliceTo(d, -n) + "." + SliceFrom(d, -n)
  }

  /** The body of `convertValue` with the point placed `n` characters from
      the right for every `n >= 0`, so a one-digit scale gives a trailing
      point. For an empty scale it keeps the source's slicing. */
  function Cut(intPart: string, scale: string): string {
    var n := Precision(scale);
    if n >= 0 then PointAt(Signed(intPart, n), n) else CutAsWritten(intPart, scale)
  }

  lemma CutIsExact(intPart: string, scale: string)
    requires Precision(scale) >= 0
    ensures ExactDecimal(Cut(intPart, scale), intPart, Precision(scale))
  {
    var n := Precision(scale);
    PointAtLayout(Sign(intPart), LeftPad(Magnitude(intPart), n + 1), n);
  }

  /** `convertValue` as the source writes it. */
  function ConvertValueAsWritten(raw: string): (r: Result<string, Error>)
    ensures r.Err? <==> Count(raw, '/') != 1
    ensures r.Err? ==> r.error == MalformedAmount(raw)
  {
    var f :- Fields(raw);
    Ok(CutAsWritten(f.0, f.1))
  }

  /** `convertValue` with the one-digit-scale slice corrected: a malformed
      amount is an error, and otherwise the result has the exact layout. */
  function ConvertValue(raw: string): (r: Result<string, Error>)
    ensures r.Err? <==> Count(raw, '/') != 1
    ensures r.Err? ==> r.error == MalformedAmount(raw)
    ensures r.Ok? ==> var f := Fields(raw).value;
                      Precision(f.1) >= 0 ==> ExactDecimal(r.value, f.0, Precision(f.1))
  {
    var f :- Fields(raw);
    if Precision(f.1) >= 0 then CutIsExact(f.0, f.1); Ok(Cut(f.0, f.1))
    else Ok(Cut(f.0, f.1))
  }

  /** The digits before and after the point of an exact conversion. */
  function IntegerDigits(out: string, intPart: string, n: nat): string
    requires ExactDecimal(out, intPart, n)
  {
    out[|Sign(intPart)|..|out| - n - 1]
  }

  function FractionDigits(out: string, intPart: string, n: nat): string
    requires ExactDecimal(out, intPart, n)
  {
    out[|out| - n..]
  }

  /** An exact conversion is the sign, the integer digits, the point and the
      fraction digits, and the digits are the padded magnitude. */
  lemma ExactParts(out: string, intPart: string, n: nat)
    requires ExactDecimal(out, intPart, n)
    ensures out == Sign(intPart) + IntegerDigits(out, intPart, n) + "." + FractionDigits(out, intPart, n)
    ensures IntegerDigits(out, intPart, n) + FractionDigits(out, intPart, n)
            == LeftPad(Magnitude(intPart), n + 1)
    ensures |IntegerDigits(out, intPart, n)| >= 1 && |FractionDigits(out, intPart, n)| == n
  {
    PointLayoutParts(out, Sign(intPart), LeftPad(Magnitude(intPart), n + 1), n);
  }

  /** Both halves of a digit string are digit strings. */
  lemma DigitHalves(a: string, b: string)
    requires AllDigits(a + b)
    ensures AllDigits(a) && AllDigits(b)
  {
    forall j | 0 <= j < |a| ensures IsDigit(a[j]) { assert a[j] == (a + b)[j]; }
    forall j | 0 <= j < |b| ensures IsDigit(b[j]) { assert b[j] == (a + b)[|a| + j]; }
  }

  /** No rounding, on the layout: for a digit magnitude the integer digits
      scaled by `10^n` plus the fraction digits are the magnitude's value. */
  lemma ExactValue(out: string, intPart: string, n: nat)
    requires ExactDecimal(out, intPart, n)
    requires AllDigits(Magnitude(intPart))
    ensures AllDigits(IntegerDigits(out, intPart, n)) && AllDigits(FractionDigits(out, intPart, n))
    ensures NatOf(IntegerDigits(out, intPart, n)) * Pow10(n) + NatOf(FractionDigits(out, intPart, n))
            == NatOf(Magnitude(intPart))
  {
    var i := IntegerDigits(out, intPart, n);
    var fr := FractionDigits(out, intPart, n);
    ExactParts(out, intPart, n);
    NatOfLeftPad(Magnitude(intPart), n + 1);
    DigitHalves(i, fr);
    NatOfAppend(i, fr);
  }

  /** No rounding: for a digit magnitude, the integer digits scaled by
      `10^n` plus the `n` fraction digits give back the magnitude's value. */
  lemma NoRounding(raw: string)
    requires ConvertValue(raw).Ok?
    requires Precision(Fields(raw).value.1) >= 0
    requires AllDigits(Magnitude(Fields(raw).value.0))
    ensures var f := Fields(raw).value; var n := Precision(f.1); var out := ConvertValue(raw).value;
            && |FractionDigits(out, f.0, n)| == n
            && AllDigits(IntegerDigits(out, f.0, n)) && AllDigits(FractionDigits(out, f.0, n))
            && NatOf(IntegerDigits(out, f.0, n)) * Pow10(n) + NatOf(FractionDigits(out, f.0, n))
               == NatOf(Magnitude(f.0))
  {
    var f := Fields(raw).value;
    var out := ConvertValue(raw).value;
    ExactParts(out, f.0, Precision(f.1));
    ExactValue(out, f.0, Precision(f.1));
  }

  /** On the layout: the output starts with `-` exactly when the integer
      field did. */
  lemma ExactSign(out: string, intPart: string, n: nat)
    requires ExactDecimal(out, intPart, n)
    ensures (|out| > 0 && out[0] == '-') <==> Negative(intPart)
  {
    ExactParts(out, intPart, n);
    var m := Magnitude(intPart);
    var padded := LeftPad(m, n + 1);
    var i := IntegerDigits(out, intPart, n);
    if !Negative(intPart) {
      assert out[0] == i[0] == padded[0];
      if |m| >= n + 1 {
        assert padded[|padded| - |m|..] == m;
        assert padded[0] == m[0];
      }
    }
  }

  /** The output starts with `-` exactly when the integer field did. */
  lemma SignPreserved(intPart: string, scale: string)
    requires '/' !in intPart && '/' !in scale && |scale| > 0
    ensures ConvertValue(intPart + "/" + scale).Ok?
    ensures var out := ConvertValue(intPart + "/" + scale).value;
            (|out| > 0 && out[0] == '-') <==> Negative(intPart)
  {
    ConvertPair(intPart, scale);
    CutIsExact(intPart, scale);
    ExactSign(Cut(intPart, scale), intPart, Precision(scale));
  }

  /** On the layout: one point when the integer field has none. */
  lemma ExactOnePoint(out: string, intPart: string, n: nat)
    requires ExactDecimal(out, intPart, n)
    requires '.' !in intPart
    ensures Count(out, '.') == 1
  {
    ExactParts(out, intPart, n);
    var s := Sign(intPart);
    var m := Magnitude(intPart);
    var i := IntegerDigits(out, intPart, n);
    var fr := FractionDigits(out, intPart, n);
    var padded := LeftPad(m, n + 1);
    assert '.' !in padded by {
      forall j | 0 <= j < |padded| ensures padded[j] != '.' {
        if j >= |padded| - |m| {
          assert padded[j] == padded[|padded| - |m|..][j - (|padded| - |m|)];
        }
      }
    }
    assert '.' !in i && '.' !in fr by {
      forall j | 0 <= j < |i| ensures i[j] != '.' { assert i[j] == (i + fr)[j]; }
      forall j | 0 <= j < |fr| ensures fr[j] != '.' { assert fr[j] == (i + fr)[|i| + j]; }
    }
    CountZeroIffAbsent(s, '.');
    CountZeroIffAbsent(i, '.');
    CountZeroIffAbsent(fr, '.');
    CountAppend(s + i + ".", fr, '.');
    CountAppend(s + i, ".", '.');
    CountAppend(s, i, '.');
  }

  /** Exactly one point in the output when the integer field has none. */
  lemma OnePoint(intPart: string, scale: string)
    requires '/' !in intPart && '/' !in scale && |scale| > 0
    requires '.' !in intPart
    ensures ConvertValue(intPart + "/" + scale).Ok?
    ensures Count(ConvertValue(intPart + "/" + scale).value, '.') == 1
  {
    ConvertPair(intPart, scale);
    CutIsExact(intPart, scale);
    ExactOnePoint(Cut(intPart, scale), intPart, Precision(scale));
  }

  /** Splitting a joined pair gives the pair back. */
  lemma FieldsOfPair(a: string, b: string)
    requires '/' !in a && '/' !in b
    ensures Fields(a + "/" + b) == Ok((a, b))
  {
    SplitOnPrefix(a, b, '/');
    SplitOnFree(b, '/');
  }

  /** The source and the corrected codec differ only for a one-digit scale. */
  lemma AsWrittenAgreesOffOneDigitScale(intPart: string, scale: string)
    requires Precision(scale) != 0
    ensures CutAsWritten(intPart, scale) == Cut(intPart, scale)
  {
    var n := Precision(scale);
    if n > 0 {
      var d := Signed(intPart, n);
      assert SliceIndex(|d|, -n) == |d| - n;
    }
  }

  /** With a one-digit scale Python's `[:-0]` is empty and `[-0:]` is
      everything, so the source puts the point in front of the signed digits;
      the corrected codec puts it behind them. */
  lemma AsWrittenOneDigitScale(intPart: string, scale: string)
    requires Precision(scale) == 0
    ensures CutAsWritten(intPart, scale) == "." + Signed(intPart, 0)
    ensures Cut(intPart, scale) == Signed(intPart, 0) + "."
  {
    var d := Signed(intPart, 0);
    SliceAtZero(d);
    PointAtZero(d);
  }

  lemma PointAtZero(d: string)
    ensures PointAt(d, 0) == d + "."
  {
  }

  /** A well-formed amount converts as its two fields do. */
  lemma ConvertPair(intPart: string, scale: string)
    requires '/' !in intPart && '/' !in scale
    ensures ConvertValue(intPart + "/" + scale) == Ok(Cut(intPart, scale))
    ensures ConvertValueAsWritten(intPart + "/" + scale) == Ok(CutAsWritten(intPart, scale))
  {
    FieldsOfPair(intPart, scale);
  }

  /** A magnitude already `n + 1` long is not padded: the signed digits are
      the integer field itself. */
  lemma SignedUnpadded(intPart: string, n: int)
    requires |Magnitude(intPart)| >= n + 1
    ensures Signed(intPart, n) == intPart
  {
    var m := Magnitude(intPart);
    assert LeftPad(m, n + 1) == m;
  }

  /** Ten whole units (`10/1`) come out as `.10`, which a ledger reads as
      one tenth, and minus seven (`-7/1`) as `.-7`; neither has the exact
      layout, which the corrected codec restores. */
  lemma AsWrittenLosesMagnitude()
    ensures CutAsWritten("10", "1") == ".10"
    ensures !ExactDecimal(".10", "10", 0)
    ensures CutAsWritten("-7", "1") == ".-7"
    ensures !ExactDecimal(".-7", "-7", 0)
    ensures Cut("10", "1") == "10."
    ensures Cut("-7", "1") == "-7."
  {
    AsWrittenOneDigitScale("10", "1");
    SignedUnpadded("10", 0);
    AsWrittenOneDigitScale("-7", "1");
    SignedUnpadded("-7", 0);
    assert Sign("-7") == "-";
  }

  /** Worked conversion of the fields of `-12/1000`: padded to four digits
      behind the sign, with three after the point. */
  lemma ExampleNegative()
    ensures Cut("-12", "1000") == "-0.012"
  {
    assert Magnitude("-12") == "12";
    assert Repeat('0', 2) == "00";
    assert Signed("-12", 3) == "-0012";
    assert PointAt("-0012", 3) == "-0.012";
  }

  /** Worked conversion of the fields of `500/10`: no padding needed. */
  lemma ExampleScaled()
    ensures Cut("500", "10") == "50.0"
  {
    SignedUnpadded("500", 1);
    assert PointAt("500", 1) == "50.0";
  }

  lemma MalformedExamples()
    ensures ConvertValue("12") == Err(MalformedAmount("12"))
    ensures ConvertValue("1/2/3") == Err(MalformedAmount("1/2/3"))
  {
  }
}

=== FILE: splits.dfy ===
/** Splits: the legs of a transaction. Constructing one looks its account up
    and marks it used; rendering one decides between a plain amount in the
    transaction's currency and a price-converted amount. */
module Splits {
  import opened Wrappers
  import opened Errors
  import opened Text
  import opened Decimal
  import opened Accounts

  /** A split as read from the document; the amounts are still `int/scale`. */
  datatype RawSplit = RawSplit(reconciledState: string, accountId: string, rawValue: string, rawQuantity: string)

  /** A constructed split: `value` is the decimal amount in the transaction's
      currency, `quantity` the decimal amount in the account's commodity. */
  datatype Split = Split(reconciled: bool, accountId: string, value: string, quantity: string)

  /** What constructing `raw` needs: its account is registered and both
      amounts have exactly one `/`. */
  predicate SplitOk(keys: set<string>, raw: RawSplit) {
    && raw.accountId in keys
    && Count(raw.rawValue, '/') == 1
    && Count(raw.rawQuantity, '/') == 1
  }

  /** The error constructing `raw` raises when it fails: the account
      lookup comes first, then the value, then the quantity. */
  function SplitError(keys: set<string>, raw: RawSplit): Error {
    if raw.accountId !in keys then MissingAccount(raw.accountId)
    else if Count(raw.rawValue, '/') != 1 then MalformedAmount(raw.rawValue)
    else MalformedAmount(raw.rawQuantity)
  }

  /** `s` is what constructing `raw` yields: the reconciled flag is set
      exactly for state `y`, and both amounts are the codec's output. */
  predicate Converted(raw: RawSplit, s: Split) {
    && (s.reconciled <==> raw.reconciledState == "y")
    && s.accountId == raw.accountId
    && Ok(s.value) == ConvertValue(raw.rawValue)
    && Ok(s.quantity) == ConvertValue(raw.rawQuantity)
  }

  /** `Split.__init__`: look the account up (a missing id is a lookup
      failure), mark it used, then convert the value and the quantity. */
  function NewSplit(reg: Registry, raw: RawSplit): (r: Result<(Registry, Split), Error>)
    requires Valid(reg)
    ensures r.Ok? <==> SplitOk(reg.accounts.Keys, raw)
    ensures r.Err? ==> r.error == SplitError(reg.accounts.Keys, raw)
    ensures r.Ok? ==> Valid(r.value.0) && UsedAdded(reg, r.value.0, {raw.accountId})
    ensures r.Ok? ==> Converted(raw, r.value.1)
  {
    if raw.accountId !in reg.accounts then Err(MissingAccount(raw.accountId))
    else
      var marked := MarkUsed(reg, raw.accountId);
      MarkUsedAdds(reg, raw.accountId);
      var value :- ConvertValue(raw.rawValue);
      var quantity :- ConvertValue(raw.rawQuantity);
      Ok((marked, Split(raw.reconciledState == "y", raw.accountId, value, quantity)))
  }

  /** The marker of a reconciled split. */
  function Flag(reconciled: bool): string {
    if reconciled then "* " else ""
  }

  /** `value[1:] if value.startswith('-') else value`. */
  function StripMinus(v: string): (r: string)
    ensures |v| > 0 && v[0] == '-' ==> v == "-" + r
    ensures !(|v| > 0 && v[0] == '-') ==> r == v
  {
    if |v| > 0 && v[0] == '-' then v[1..] else v
  }

  /** The total price of a converted split never carries a sign: removing
      the minus of an exact decimal leaves its unsigned digits and point. */
  lemma PriceIsMagnitude(out: string, intPart: string, n: nat)
    requires ExactDecimal(out, intPart, n)
    requires AllDigits(Magnitude(intPart))
    ensures StripMinus(out) == out[|Sign(intPart)|..]
    ensures |StripMinus(out)| > 0 && IsDigit(StripMinus(out)[0])
  {
    ExactParts(out, intPart, n);
    ExactValue(out, intPart, n);
    var i := IntegerDigits(out, intPart, n);
    var tail := i + "." + FractionDigits(out, intPart, n);
    assert IsDigit(tail[0]) by { assert tail[0] == i[0]; }
    StripSign(Sign(intPart), tail);
  }

  /** Removing the minus from a signed digit string leaves the digits. */
  lemma StripSign(sign: string, tail: string)
    requires sign == "-" || sign == ""
    requires |tail| > 0 && IsDigit(tail[0])
    ensures StripMinus(sign + tail) == tail
  {
    if sign == "" {
      assert sign + tail == tail;
    }
  }

  /** Python's `str()` of an optional commodity id: `None` prints as `None`. */
  function OptionText(o: Option<string>): string {
    match o
    case None => "None"
    case Some(s) => s
  }

  /** The amount part of a split line. When the account's commodity is the
      transaction's, the value in that commodity; otherwise the quantity in
      the account's commodity, quoted, with the unsigned value as its total
      price (`@@`). An account without a commodity takes the second branch. */
  function Amount(s: Split, accountCommodity: Option<string>, commodity: string): string {
    if accountCommodity == Some(commodity) then s.value + " " + commodity
    else " " + s.quantity + " \"" + OptionText(accountCommodity) + "\" @@ " + StripMinus(s.value) + " " + commodity
  }

  /** `Split.toLedgerFormat`: indentation, two spaces, the reconciled marker,
      the account's full name, four spaces, then the amount. Fails when the
      account or one of its ancestors is not registered. */
  function SplitLine(accounts: map<string, Account>, s: Split, commodity: string, indent: nat): (r: Result<string, Error>)
    requires Acyclic(accounts)
    ensures s.accountId !in accounts ==> r == Err(MissingAccount(s.accountId))
    ensures s.accountId in accounts ==> (r.Ok? <==> FullName(accounts, s.accountId).Ok?)
    ensures r.Err? ==> r.error.MissingAccount? && r.error.id !in accounts
    ensures r.Ok? ==>
              && s.accountId in accounts
              && r.value == Posting(indent, s.reconciled, FullName(accounts, s.accountId).value,
                                    Amount(s, accounts[s.accountId].commodity, commodity))
  {
    if s.accountId !in accounts then Err(MissingAccount(s.accountId))
    else
      var full :- FullName(accounts, s.accountId);
      Ok(Posting(indent, s.reconciled, full, Amount(s, accounts[s.accountId].commodity, commodity)))
  }

  /** The layout of a split line: indentation, two spaces, the reconciled
      marker, the account name, four spaces, the amount. */
  function Posting(indent: nat, reconciled: bool, full: string, amount: string): string {
    Spaces(indent) + "  " + Flag(reconciled) + full + "    " + amount
  }

  /** After the indentation and two spaces a posting goes on with the
      marker, then the account name. */
  lemma PostingAfterIndent(indent: nat, reconciled: bool, full: string, amount: string)
    ensures |Posting(indent, reconciled, full, amount)| >= indent + 2
    ensures Posting(indent, reconciled, full, amount)[indent + 2..] == Flag(reconciled) + (full + "    " + amount)
  {
    var lead := Spaces(indent) + "  ";
    var rest := full + "    " + amount;
    assert |lead| == indent + 2;
    assert Posting(indent, reconciled, full, amount) == lead + (Flag(reconciled) + rest);
  }

  /** A character other than space and `*` that the account name avoids
      occurs in a posting exactly as often as in its amount. */
  lemma PostingCount(indent: nat, reconciled: bool, full: string, amount: string, c: char)
    requires c != ' ' && c != '*' && c !in full
    ensures Count(Posting(indent, reconciled, full, amount), c) == Count(amount, c)
  {
    var head := Spaces(indent) + "  " + Flag(reconciled) + full + "    ";
    SpacesAvoid(indent, c);
    assert c !in head;
    CountZeroIffAbsent(head, c);
    CountAppend(head, amount, c);
  }

  /** No `@` in any of the pieces a split line is made of. */
  predicate AtFree(accounts: map<string, Account>, s: Split, commodity: string) {
    && (forall k :: k in accounts ==> '@' !in accounts[k].name)
    && '@' !in s.value && '@' !in s.quantity && '@' !in commodity
    && (s.accountId in accounts ==> '@' !in OptionText(accounts[s.accountId].commodity))
  }

  /** The amount of a same-commodity line holds no `@`; a converted one
      holds exactly the two of `@@`. */
  lemma AmountAts(s: Split, accountCommodity: Option<string>, commodity: string)
    requires '@' !in s.value && '@' !in s.quantity && '@' !in commodity
    requires '@' !in OptionText(accountCommodity)
    ensures accountCommodity == Some(commodity) ==> Count(Amount(s, accountCommodity, commodity), '@') == 0
    ensures accountCommodity != Some(commodity) ==> Count(Amount(s, accountCommodity, commodity), '@') == 2
  {
    var amount := Amount(s, accountCommodity, commodity);
    if accountCommodity == Some(commodity) {
      assert '@' !in amount;
      CountZeroIffAbsent(amount, '@');
    } else {
      var before := " " + s.quantity + " \"" + OptionText(accountCommodity) + "\" ";
      var after := " " + StripMinus(s.value) + " " + commodity;
      assert '@' !in StripMinus(s.value);
      assert amount == before + "@@" + after;
      assert '@' !in before && '@' !in after;
      CountZeroIffAbsent(before, '@');
      CountZeroIffAbsent(after, '@');
      CountAppend(before + "@@", after, '@');
      CountAppend(before, "@@", '@');
    }
  }

  /** A price clause appears exactly when the commodities differ: a
      same-commodity line has no `@` at all, a converted one exactly the
      two of `@@`. */
  lemma PriceClauseIffConversion(accounts: map<string, Account>, s: Split, commodity: string, indent: nat)
    requires Acyclic(accounts)
    requires SplitLine(accounts, s, commodity, indent).Ok?
    requires AtFree(accounts, s, commodity)
    ensures var line := SplitLine(accounts, s, commodity, indent).value;
            && (accounts[s.accountId].commodity == Some(commodity) <==> Count(line, '@') == 0)
            && (accounts[s.accountId].commodity != Some(commodity) ==> Count(line, '@') == 2)
  {
    var full := FullName(accounts, s.accountId).value;
    var a := accounts[s.accountId].commodity;
    FullNameAvoids(accounts, s.accountId, '@');
    PostingCount(indent, s.reconciled, full, Amount(s, a, commodity), '@');
    AmountAts(s, a, commodity);
  }

  /** The marker is there exactly for a reconciled split: after the
      indentation and two spaces the line goes on with `* ` and the full name,
      or directly with the full name. */
  lemma ReconciledMarker(accounts: map<string, Account>, s: Split, commodity: string, indent: nat)
    requires Acyclic(accounts)
    requires SplitLine(accounts, s, commodity, indent).Ok?
    ensures var line := SplitLine(accounts, s, commodity, indent).value;
            var rest := FullName(accounts, s.accountId).value + "    " + Amount(s, accounts[s.accountId].commodity, commodity);
            && |line| >= indent + 2
            && (s.reconciled ==> line[indent + 2..] == "* " + rest)
            && (!s.reconciled ==> line[indent + 2..] == rest)
  {
    PostingAfterIndent(indent, s.reconciled, FullName(accounts, s.accountId).value,
                       Amount(s, accounts[s.accountId].commodity, commodity));
  }
}

=== FILE: stable_sort.dfy ===
/** Python's `sorted(xs, key=f)`: the elements in ascending key order, and
    elements with equal keys in their original order (the sort is stable). */
module StableSort {

  predicate SortedBy<T>(s: seq<T>, key: T -> int) {
    forall i, j :: 0 <= i < j < |s| ==> key(s[i]) <= key(s[j])
  }

  /** The elements of `s` whose key is `k`, in their order in `s`. */
  function WithKey<T>(s: seq<T>, key: T -> int, k: int): seq<T>
    decreases |s|
  {
    if |s| == 0 then []
    else (if key(s[0]) == k then [s[0]] else []) + WithKey(s[1..], key, k)
  }

  lemma {:induction false} WithKeyAppend<T>(a: seq<T>, b: seq<T>, key: T -> int, k: int)
    ensures WithKey(a + b, key, k) == WithKey(a, key, k) + WithKey(b, key, k)
    decreases |a|
  {
    if |a| == 0 {
      assert a + b == b;
    } else {
      var head := if key(a[0]) == k then [a[0]] else [];
      assert (a + b)[0] == a[0] && (a + b)[1..] == a[1..] + b;
      assert WithKey(a + b, key, k) == head + WithKey(a[1..] + b, key, k);
      WithKeyAppend(a[1..], b, key, k);
    }
  }

  /** `x` placed after every element whose key is not greater than its own. */
  function Insert<T>(x: T, s: seq<T>, key: T -> int): (r: seq<T>)
    ensures |r| == |s| + 1 && multiset(r) == multiset(s) + multiset{x}
    decreases |s|
  {
    if |s| == 0 then [x]
    else if key(x) < key(s[0]) then [x] + s
    else
      assert s == [s[0]] + s[1..];
      [s[0]] + Insert(x, s[1..], key)
  }

  /** Where `Insert` places `x`: after the leading elements whose keys are
      not greater than its own. */
  function InsertPos<T>(x: T, s: seq<T>, key: T -> int): (p: nat)
    ensures p <= |s|
    decreases |s|
  {
    if |s| == 0 || key(x) < key(s[0]) then 0
    else 1 + InsertPos(x, s[1..], key)
  }

  /** `x` lands at `InsertPos`. */
  lemma {:induction false} InsertAt<T>(x: T, s: seq<T>, key: T -> int)
    ensures Insert(x, s, key) == s[..InsertPos(x, s, key)] + [x] + s[InsertPos(x, s, key)..]
    decreases |s|
  {
    if |s| == 0 || key(x) < key(s[0]) {
      assert s[..0] + [x] + s[0..] == [x] + s;
    } else {
      var t := s[1..];
      var q := InsertPos(x, t, key);
      InsertAt(x, t, key);
      assert Insert(x, s, key) == [s[0]] + (t[..q] + [x] + t[q..]);
      assert s[..q + 1] == [s[0]] + t[..q];
      assert s[q + 1..] == t[q..];
    }
  }

  /** Everything before the insertion point has a key up to that of `x`. */
  lemma {:induction false} InsertPosBefore<T>(x: T, s: seq<T>, key: T -> int, i: int)
    requires 0 <= i < InsertPos(x, s, key)
    ensures key(s[i]) <= key(x)
    decreases |s|
  {
    if i > 0 {
      InsertPosBefore(x, s[1..], key, i - 1);
      assert s[1..][i - 1] == s[i];
    }
  }

  /** In a sorted sequence everything from the insertion point on has a
      greater key than `x`. */
  lemma {:induction false} InsertPosAfter<T>(x: T, s: seq<T>, key: T -> int, i: int)
    requires SortedBy(s, key)
    requires InsertPos(x, s, key) <= i < |s|
    ensures key(x) < key(s[i])
    decreases |s|
  {
    if key(x) < key(s[0]) {
      assert key(s[0]) <= key(s[i]) || i == 0;
    } else {
      var t := s[1..];
      assert SortedBy(t, key) by {
        forall a, b | 0 <= a < b < |t| ensures key(t[a]) <= key(t[b]) {
          assert t[a] == s[a + 1] && t[b] == s[b + 1];
        }
      }
      InsertPosAfter(x, t, key, i - 1);
      assert t[i - 1] == s[i];
    }
  }

  /** Inserting keeps a sequence sorted. */
  lemma InsertSorted<T>(x: T, s: seq<T>, key: T -> int)
    requires SortedBy(s, key)
    ensures SortedBy(Insert(x, s, key), key)
  {
    InsertAt(x, s, key);
    var p := InsertPos(x, s, key);
    var r := Insert(x, s, key);
    forall i, j | 0 <= i < j < |r|
      ensures key(r[i]) <= key(r[j])
    {
      if i == p {
        assert r[j] == s[j - 1];
        InsertPosAfter(x, s, key, j - 1);
      } else if j == p {
        assert r[i] == s[i];
        InsertPosBefore(x, s, key, i);
      } else {
        var i' := if i < p then i else i - 1;
        var j' := if j < p then j else j - 1;
        assert r[i] == s[i'] && r[j] == s[j'];
      }
    }
  }

  /** Among the elements with a given key, the inserted one comes last. */
  lemma InsertWithKey<T>(x: T, s: seq<T>, key: T -> int, k: int)
    requires SortedBy(s, key)
    ensures WithKey(Insert(x, s, key), key, k) == WithKey(s, key, k) + WithKey([x], key, k)
  {
    var p := InsertPos(x, s, key);
    InsertWithKeyParts(x, s, key, k);
    if key(x) == k {
      AfterInsertPos(x, s, key);
      WithKeyNone(s[p..], key, k);
    } else {
      WithKeyOne(x, key, k);
    }
  }

  /** The elements with key `k` before the insertion point, then `x` if it
      has key `k`, then those after the insertion point. */
  lemma InsertWithKeyParts<T>(x: T, s: seq<T>, key: T -> int, k: int)
    ensures var p := InsertPos(x, s, key);
            && WithKey(Insert(x, s, key), key, k) == WithKey(s[..p], key, k) + WithKey([x], key, k) + WithKey(s[p..], key, k)
            && WithKey(s, key, k) == WithKey(s[..p], key, k) + WithKey(s[p..], key, k)
  {
    InsertAt(x, s, key);
    var p := InsertPos(x, s, key);
    var a, b := s[..p], s[p..];
    assert s == a + b;
    WithKeyAppend(a, b, key, k);
    WithKeyAppend(a + [x], b, key, k);
    WithKeyAppend(a, [x], key, k);
  }

  /** In a sorted sequence everything from the insertion point on has a
      greater key than `x`. */
  lemma AfterInsertPos<T>(x: T, s: seq<T>, key: T -> int)
    requires SortedBy(s, key)
    ensures var b := s[InsertPos(x, s, key)..];
            forall i :: 0 <= i < |b| ==> key(x) < key(b[i])
  {
    var p := InsertPos(x, s, key);
    var b := s[p..];
    forall i | 0 <= i < |b| ensures key(x) < key(b[i]) {
      InsertPosAfter(x, s, key, p + i);
    }
  }

  lemma WithKeyOne<T>(x: T, key: T -> int, k: int)
    ensures WithKey([x], key, k) == if key(x) == k then [x] else []
  {
    assert [x][1..] == [];
  }

  /** No element has key `k` when every key exceeds it. */
  lemma {:induction false} WithKeyNone<T>(s: seq<T>, key: T -> int, k: int)
    requires forall i :: 0 <= i < |s| ==> k < key(s[i])
    ensures WithKey(s, key, k) == []
    decreases |s|
  {
    if |s| > 0 {
      WithKeyNone(s[1..], key, k);
    }
  }

  /** Insertion sort taking the elements in order, so that among equal keys
      the earlier element stays first. */
  function SortBy<T>(s: seq<T>, key: T -> int): (r: seq<T>)
    ensures |r| == |s| && multiset(r) == multiset(s)
    decreases |s|
  {
    if |s| == 0 then []
    else
      assert s == s[..|s| - 1] + [s[|s| - 1]];
      Insert(s[|s| - 1], SortBy(s[..|s| - 1], key), key)
  }

  /** The result is in ascending key order, and for every key the elements
      with that key keep their original relative order. */
  lemma {:induction false} SortByStable<T>(s: seq<T>, key: T -> int)
    ensures SortedBy(SortBy(s, key), key)
    ensures forall k :: WithKey(SortBy(s, key), key, k) == WithKey(s, key, k)
    decreases |s|
  {
    if |s| > 0 {
      var init := s[..|s| - 1];
      var x := s[|s| - 1];
      SortByStable(init, key);
      InsertSorted(x, SortBy(init, key), key);
      forall k
        ensures WithKey(SortBy(s, key), key, k) == WithKey(s, key, k)
      {
        InsertWithKey(x, SortBy(init, key), key, k);
        assert s == init + [x];
        WithKeyAppend(init, [x], key, k);
      }
    }
  }
}

=== FILE: text.dfy ===
/** String helpers with the meaning Python gives them: `str.join`,
    `str.split` on one character, slicing with possibly negative bounds, and
    zero padding. Strings are `seq<char>`. */
module Text {

  /** `n` copies of `c` (Python's `c * n`, which is empty for `n <= 0`). */
  function Repeat(c: char, n: int): (r: string)
    ensures |r| == if n < 0 then 0 else n
    ensures forall i :: 0 <= i < |r| ==> r[i] == c
    decreases n
  {
    if n <= 0 then [] else [c] + Repeat(c, n - 1)
  }

  /** The indentation Python writes as `' ' * indent`. */
  function Spaces(indent: nat): string {
    Repeat(' ', indent)
  }

  lemma SpacesAvoid(indent: nat, c: char)
    requires c != ' '
    ensures c !in Spaces(indent)
  {
  }

  /** Number of occurrences of `c` in `s`. */
  function Count(s: string, c: char): nat {
    if |s| == 0 then 0 else (if s[0] == c then 1 else 0) + Count(s[1..], c)
  }

  lemma {:induction false} CountAppend(a: string, b: string, c: char)
    ensures Count(a + b, c) == Count(a, c) + Count(b, c)
    decreases |a|
  {
    if |a| == 0 {
      assert a + b == b;
    } else {
      assert (a + b)[1..] == a[1..] + b;
      CountAppend(a[1..], b, c);
    }
  }

  lemma {:induction false} CountZeroIffAbsent(s: string, c: char)
    ensures Count(s, c) == 0 <==> c !in s
    decreases |s|
  {
    if |s| > 0 {
      CountZeroIffAbsent(s[1..], c);
      assert s == [s[0]] + s[1..];
    }
  }

  /** Python's `sep.join(xs)`. */
  function Join(xs: seq<string>, sep: string): string
    decreases |xs|
  {
    if |xs| == 0 then ""
    else if |xs| == 1 then xs[0]
    else xs[0] + sep + Join(xs[1..], sep)
  }

  /** Python's `s.split(c)` for a one-character separator: the maximal
      separator-free pieces, always at least one. */
  function SplitOn(s: string, c: char): (r: seq<string>)
    ensures |r| == Count(s, c) + 1
    ensures forall i :: 0 <= i < |r| ==> c !in r[i]
    decreases |s|
  {
    if |s| == 0 then [""]
    else
      var rest := SplitOn(s[1..], c);
      if s[0] == c then [""] + rest
      else [[s[0]] + rest[0]] + rest[1..]
  }

  /** Splitting and re-joining with the same separator gives the string back. */
  lemma {:induction false} JoinSplitOn(s: string, c: char)
    ensures Join(SplitOn(s, c), [c]) == s
    decreases |s|
  {
    if |s| > 0 {
      var rest := SplitOn(s[1..], c);
      JoinSplitOn(s[1..], c);
      if s[0] == c {
        assert SplitOn(s, c) == [""] + rest;
        assert ([""] + rest)[1..] == rest;
      } else {
        var r := [[s[0]] + rest[0]] + rest[1..];
        assert SplitOn(s, c) == r;
        if |rest| == 1 {
          assert Join(rest, [c]) == rest[0];
        } else {
          assert r[1..] == rest[1..];
          assert Join(rest, [c]) == rest[0] + [c] + Join(rest[1..], [c]);
        }
      }
    }
  }

  /** Joining separator-free pieces and splitting again gives the pieces back. */
  lemma {:induction false} SplitOnJoin(xs: seq<string>, c: char)
    requires |xs| >= 1
    requires forall i :: 0 <= i < |xs| ==> c !in xs[i]
    ensures SplitOn(Join(xs, [c]), c) == xs
    decreases |xs|
  {
    if |xs| == 1 {
      SplitOnFree(xs[0], c);
    } else {
      SplitOnJoin(xs[1..], c);
      SplitOnPrefix(xs[0], Join(xs[1..], [c]), c);
    }
  }

  /** A separator-free string splits into itself. */
  lemma {:induction false} SplitOnFree(s: string, c: char)
    requires c !in s
    ensures SplitOn(s, c) == [s]
    decreases |s|
  {
    if |s| > 0 {
      assert s[0] != c;
      SplitOnFree(s[1..], c);
      assert [s[0]] + s[1..] == s;
    }
  }

  /** Splitting `a + [c] + b` for separator-free `a` yields `a` then the pieces of `b`. */
  lemma {:induction false} SplitOnPrefix(a: string, b: string, c: char)
    requires c !in a
    ensures SplitOn(a + [c] + b, c) == [a] + SplitOn(b, c)
    decreases |a|
  {
    if |a| == 0 {
      assert a + [c] + b == [c] + b;
      assert ([c] + b)[1..] == b;
    } else {
      assert (a + [c] + b)[1..] == a[1..] + [c] + b;
      SplitOnPrefix(a[1..], b, c);
      assert a == [a[0]] + a[1..];
    }
  }

  /** Splitting at a separator between two strings splits each side. */
  lemma {:induction false} SplitOnConcat(a: string, b: string, c: char)
    ensures SplitOn(a + [c] + b, c) == SplitOn(a, c) + SplitOn(b, c)
    decreases |a|
  {
    if |a| == 0 {
      assert a + [c] + b == [c] + b;
      assert ([c] + b)[1..] == b;
    } else {
      var t := a + [c] + b;
      assert t[0] == a[0] && t[1..] == a[1..] + [c] + b;
      SplitOnConcat(a[1..], b, c);
      var left := SplitOn(a[1..], c);
      var r := left + SplitOn(b, c);
      if a[0] != c {
        assert r[0] == left[0] && r[1..] == left[1..] + SplitOn(b, c);
      }
    }
  }

  /** The lines of several texts joined by a separator: the pieces of each
      text in turn, the last piece of one and the first of the next kept
      apart. */
  function LinesOf(xs: seq<string>, c: char): (r: seq<string>)
    ensures |r| >= 1
    decreases |xs|
  {
    if |xs| == 0 then [""]
    else if |xs| == 1 then SplitOn(xs[0], c)
    else SplitOn(xs[0], c) + LinesOf(xs[1..], c)
  }

  /** Splitting joined texts at the joining separator gives the pieces of
      each text in order. */
  lemma {:induction false} SplitOnJoinLines(xs: seq<string>, c: char)
    ensures SplitOn(Join(xs, [c]), c) == LinesOf(xs, c)
    decreases |xs|
  {
    if |xs| > 1 {
      SplitOnJoinLines(xs[1..], c);
      SplitOnConcat(xs[0], Join(xs[1..], [c]), c);
    }
  }

  /** Texts separated by blank lines read back as the lines of each, with
      one empty line between them. */
  lemma BlankLineSeparated(a: string, b: string, c: string)
    ensures SplitOn(a + "\n\n" + b + "\n\n" + c, '\n')
            == SplitOn(a, '\n') + [""] + SplitOn(b, '\n') + [""] + SplitOn(c, '\n')
  {
    var nl := ['\n'];
    var tail := "" + nl + c;
    var mid := b + nl + tail;
    var rest := "" + nl + mid;
    assert a + "\n\n" + b + "\n\n" + c == a + nl + rest;
    assert SplitOn("", '\n') == [""];
    SplitOnConcat("", c, '\n');
    assert SplitOn(tail, '\n') == [""] + SplitOn(c, '\n');
    SplitOnConcat(b, tail, '\n');
    assert SplitOn(mid, '\n') == SplitOn(b, '\n') + [""] + SplitOn(c, '\n');
    SplitOnConcat("", mid, '\n');
    assert SplitOn(rest, '\n') == [""] + SplitOn(b, '\n') + [""] + SplitOn(c, '\n');
    SplitOnConcat(a, rest, '\n');
  }

  /** Joining with one more piece at the end appends a separator and it. */
  lemma {:induction false} JoinSnoc(xs: seq<string>, b: string, sep: string)
    requires |xs| >= 1
    ensures Join(xs + [b], sep) == Join(xs, sep) + sep + b
    decreases |xs|
  {
    if |xs| == 1 {
      assert (xs + [b])[1..] == [b];
    } else {
      assert (xs + [b])[1..] == xs[1..] + [b];
      JoinSnoc(xs[1..], b, sep);
    }
  }

  /** The lines a block reads back as: its lines, or one empty line when it
      has none (joining nothing gives the empty string). */
  function BodyLines(lines: seq<string>): (r: seq<string>)
    ensures |r| >= 1
  {
    if |lines| == 0 then [""] else lines
  }

  /** A header line, then the lines joined by newlines, then a final newline. */
  function Block(header: string, lines: seq<string>): (r: string)
    ensures |r| > 0 && r[|r| - 1] == '\n'
  {
    header + "\n" + Join(lines, "\n") + "\n"
  }

  /** A block of newline-free lines reads back as its header, its body lines
      and the empty remainder after the final newline. */
  lemma BlockLines(header: string, lines: seq<string>)
    requires '\n' !in header
    requires forall i :: 0 <= i < |lines| ==> '\n' !in lines[i]
    ensures SplitOn(Block(header, lines), '\n') == [header] + BodyLines(lines) + [""]
  {
    var body := BodyLines(lines);
    var xs := [header] + body + [""];
    assert Join(body, "\n") == Join(lines, "\n");
    assert xs[1..] == body + [""];
    JoinSnoc(body, "", "\n");
    assert Join(xs, "\n") == header + "\n" + (Join(body, "\n") + "\n" + "");
    assert Block(header, lines) == Join(xs, "\n");
    forall i | 0 <= i < |xs|
      ensures '\n' !in xs[i]
    {
      if 1 <= i < |xs| - 1 {
        assert xs[i] == body[i - 1];
      }
    }
    SplitOnJoin(xs, '\n');
  }

  /** `BlockLines` by position: the header first, then each body line (or
      one empty line when there are none), then the empty remainder. */
  lemma BlockLineAt(header: string, lines: seq<string>)
    requires '\n' !in header
    requires forall i :: 0 <= i < |lines| ==> '\n' !in lines[i]
    ensures var ls := SplitOn(Block(header, lines), '\n');
            && |ls| == 2 + (if |lines| == 0 then 1 else |lines|)
            && ls[0] == header
            && ls[|ls| - 1] == ""
            && (|lines| == 0 ==> ls[1] == "")
            && forall i :: 0 <= i < |lines| ==> ls[i + 1] == lines[i]
  {
    BlockLines(header, lines);
  }

  /** Two lines, each terminated: when both are newline-free they read back
      as those lines and an empty remainder. */
  lemma TwoLines(a: string, b: string)
    ensures '\n' !in a && '\n' !in b ==> SplitOn(a + "\n" + b + "\n", '\n') == [a, b, ""]
  {
    if '\n' !in a && '\n' !in b {
      var xs := [a, b, ""];
      assert xs[1..][1..] == [""];
      assert Join(xs[1..], "\n") == b + "\n" + "";
      assert Join(xs, "\n") == a + "\n" + (b + "\n" + "");
      assert a + "\n" + (b + "\n" + "") == a + "\n" + b + "\n";
      SplitOnJoin([a, b, ""], '\n');
    }
  }

  /** The text of two lines, each terminated by a newline. */
  function TwoLineBlock(a: string, b: string): (r: string)
    ensures |r| > 0 && r[|r| - 1] == '\n'
    ensures '\n' !in a && '\n' !in b ==> SplitOn(r, '\n') == [a, b, ""]
  {
    TwoLines(a, b);
    a + "\n" + b + "\n"
  }

  /** Python's normalisation of a slice bound `k` against a length. */
  function SliceIndex(length: nat, k: int): (i: nat)
    ensures i <= length
    ensures k >= 0 ==> i == if k <= length then k else length
    ensures k < 0 ==> i == if length + k >= 0 then length + k else 0
  {
    if k < 0 then (if length + k < 0 then 0 else length + k)
    else if k > length then length
    else k
  }

  /** Python's `s[:k]`. */
  function SliceTo(s: string, k: int): string {
    s[..SliceIndex(|s|, k)]
  }

  /** Python's `s[k:]`. */
  function SliceFrom(s: string, k: int): string {
    s[SliceIndex(|s|, k)..]
  }

  /** `s[:0]` is empty and `s[0:]` is all of `s` (so are `s[:-0]` and `s[-0:]`). */
  lemma SliceAtZero(s: string)
    ensures SliceTo(s, 0) == [] && SliceFrom(s, 0) == s
  {
  }

  /** Python's `'0' * (w - len(s)) + s`: `s` left-padded with zeros to width `w`. */
  function LeftPad(s: string, w: int): (r: string)
    ensures |r| == if |s| < w then w else |s|
    ensures r[|r| - |s|..] == s
    ensures forall i :: 0 <= i < |r| - |s| ==> r[i] == '0'
  {
    Repeat('0', w - |s|) + s
  }

  predicate IsDigit(ch: char) {
    '0' <= ch <= '9'
  }

  predicate AllDigits(s: string) {
    forall i :: 0 <= i < |s| ==> IsDigit(s[i])
  }

  function Pow10(n: nat): (r: nat)
    ensures r >= 1
  {
    if n == 0 then 1 else 10 * Pow10(n - 1)
  }

  /** The natural number a string of decimal digits denotes (empty is 0). */
  function NatOf(s: string): nat
    requires AllDigits(s)
    decreases |s|
  {
    if |s| == 0 then 0 else NatOf(s[..|s| - 1]) * 10 + (s[|s| - 1] as int - '0' as int)
  }

  /** Reading a concatenation: the digits of `b` are the low-order ones. */
  lemma {:induction false} NatOfAppend(a: string, b: string)
    requires AllDigits(a) && AllDigits(b)
    ensures AllDigits(a + b)
    ensures NatOf(a + b) == NatOf(a) * Pow10(|b|) + NatOf(b)
    decreases |b|
  {
    if |b| > 0 {
      var b' := b[..|b| - 1];
      var d := b[|b| - 1] as int - '0' as int;
      assert (a + b)[..|a + b| - 1] == a + b';
      assert (a + b)[|a + b| - 1] == b[|b| - 1];
      NatOfAppend(a, b');
      calc {
        NatOf(a + b);
        NatOf(a + b') * 10 + d;
        (NatOf(a) * Pow10(|b'|) + NatOf(b')) * 10 + d;
        { MulAssoc(NatOf(a), Pow10(|b'|), 10); }
        NatOf(a) * Pow10(|b|) + NatOf(b);
      }
    } else {
      assert a + b == a;
    }
  }

  lemma MulAssoc(x: nat, y: nat, z: nat)
    ensures (x * y) * z == x * (z * y)
  {
  }

  /** Leading zeros do not change the value. */
  lemma {:induction false} NatOfLeftPad(s: string, w: int)
    requires AllDigits(s)
    ensures AllDigits(LeftPad(s, w))
    ensures NatOf(LeftPad(s, w)) == NatOf(s)
  {
    var z := Repeat('0', w - |s|);
    NatOfZeros(|z|);
    assert z == Repeat('0', |z|);
    NatOfAppend(z, s);
  }

  lemma {:induction false} NatOfZeros(k: nat)
    ensures AllDigits(Repeat('0', k))
    ensures NatOf(Repeat('0', k)) == 0
    decreases k
  {
    if k > 0 {
      var z := Repeat('0', k);
      assert z[..k - 1] == Repeat('0', k - 1);
      NatOfZeros(k - 1);
    }
  }

  function DigitChar(d: nat): (ch: char)
    requires d < 10
    ensures IsDigit(ch) && ch as int - '0' as int == d
  {
    ('0' as int + d) as char
  }

  /** Python's `str(n)` for a natural number: its shortest decimal digits. */
  function DigitsOf(n: nat): (r: string)
    ensures |r| >= 1 && AllDigits(r)
    ensures NatOf(r) == n
    ensures |r| > 1 ==> r[0] != '0'
    decreases n
  {
    if n < 10 then [DigitChar(n)]
    else
      var r := DigitsOf(n / 10) + [DigitChar(n % 10)];
      assert r[..|r| - 1] == DigitsOf(n / 10);
      r
  }

  /** A number below `10^w` needs at most `w` digits. */
  lemma {:induction false} DigitsOfLength(n: nat, w: nat)
    ensures n < Pow10(w) && w > 0 ==> |DigitsOf(n)| <= w
    decreases w
  {
    if w > 0 && n >= 10 && n < Pow10(w) {
      DigitsOfLength(n / 10, w - 1);
    }
  }
}

=== FILE: transactions.dfy ===
/** Transactions: a posting date, a currency, a description and the splits.
    Constructing one constructs its splits in document order, each marking
    its account used; rendering one prints a header line and one line per
    split. */
module Transactions {
  import opened Wrappers
  import opened Errors
  import opened Text
  import opened Dates
  import opened Accounts
  import opened Splits

  /** A transaction as read from the document. */
  datatype RawTransaction = RawTransaction(date: Timestamp, currency: string, description: string, splits: seq<RawSplit>)

  /** A constructed transaction; `currency` is the commodity its split
      values are in. */
  datatype Transaction = Transaction(date: Timestamp, currency: string, description: string, splits: seq<Split>)

  /** The accounts the splits refer to. */
  function Referenced(raws: seq<RawSplit>): set<string> {
    set i | 0 <= i < |raws| :: raws[i].accountId
  }

  /** Every split can be constructed. */
  predicate AllSplitsOk(keys: set<string>, raws: seq<RawSplit>) {
    forall i :: 0 <= i < |raws| ==> SplitOk(keys, raws[i])
  }

  /** Index of the first split that cannot be constructed, or `|raws|`
      when every one can. */
  function FirstBadSplit(keys: set<string>, raws: seq<RawSplit>): (i: nat)
    ensures i <= |raws|
    ensures i < |raws| ==> !SplitOk(keys, raws[i])
    ensures forall j :: 0 <= j < i ==> SplitOk(keys, raws[j])
    decreases |raws|
  {
    if |raws| == 0 then 0
    else if !SplitOk(keys, raws[0]) then 0
    else 1 + FirstBadSplit(keys, raws[1..])
  }

  lemma ReferencedCons(raws: seq<RawSplit>)
    requires |raws| > 0
    ensures Referenced(raws) == {raws[0].accountId} + Referenced(raws[1..])
  {
    forall id | id in Referenced(raws)
      ensures id in {raws[0].accountId} + Referenced(raws[1..])
    {
      var k :| 0 <= k < |raws| && raws[k].accountId == id;
      if k > 0 {
        assert raws[1..][k - 1] == raws[k];
      }
    }
  }

  /** The list comprehension constructing the splits: each in document
      order, threading the registry through; the first failure aborts. */
  function NewSplits(reg: Registry, raws: seq<RawSplit>): (r: Result<(Registry, seq<Split>), Error>)
    requires Valid(reg)
    ensures r.Ok? ==> Valid(r.value.0)
    decreases |raws|
  {
    if |raws| == 0 then Ok((reg, []))
    else
      var (reg1, s) :- NewSplit(reg, raws[0]);
      var (reg2, ss) :- NewSplits(reg1, raws[1..]);
      Ok((reg2, [s] + ss))
  }

  /** Constructing the splits succeeds exactly when every split can be
      constructed; otherwise it fails with the error of the first one that
      cannot. */
  lemma {:induction false} NewSplitsFails(reg: Registry, raws: seq<RawSplit>)
    requires Valid(reg)
    ensures var r := NewSplits(reg, raws);
            && (r.Ok? <==> AllSplitsOk(reg.accounts.Keys, raws))
            && (r.Err? ==> var i := FirstBadSplit(reg.accounts.Keys, raws);
                           i < |raws| && r.error == SplitError(reg.accounts.Keys, raws[i]))
    decreases |raws|
  {
    if |raws| > 0 {
      var keys := reg.accounts.Keys;
      var r0 := NewSplit(reg, raws[0]);
      if r0.Ok? {
        NewSplitsFails(r0.value.0, raws[1..]);
        assert r0.value.0.accounts.Keys == keys;
        assert AllSplitsOk(keys, raws) <==> AllSplitsOk(keys, raws[1..]) by {
          if AllSplitsOk(keys, raws[1..]) {
            forall i | 1 <= i < |raws| ensures SplitOk(keys, raws[i]) {
              assert raws[1..][i - 1] == raws[i];
            }
          }
        }
      }
    }
  }

  /** Constructing the splits marks used exactly the accounts they refer to
      and changes nothing else. */
  lemma {:induction false} NewSplitsUsed(reg: Registry, raws: seq<RawSplit>)
    requires Valid(reg)
    ensures var r := NewSplits(reg, raws);
            r.Ok? ==> UsedAdded(reg, r.value.0, Referenced(raws))
    decreases |raws|
  {
    if |raws| > 0 {
      var r0 := NewSplit(reg, raws[0]);
      if r0.Ok? {
        var reg1 := r0.value.0;
        NewSplitsUsed(reg1, raws[1..]);
        var r1 := NewSplits(reg1, raws[1..]);
        if r1.Ok? {
          UsedAddedChain(reg, reg1, r1.value.0, {raws[0].accountId}, Referenced(raws[1..]));
          ReferencedCons(raws);
        }
      }
    } else {
      assert Referenced(raws) == {};
    }
  }

  /** The constructed splits correspond one to one, in order, to the raw
      ones. */
  lemma {:induction false} NewSplitsConverted(reg: Registry, raws: seq<RawSplit>)
    requires Valid(reg)
    ensures var r := NewSplits(reg, raws);
            r.Ok? ==> |r.value.1| == |raws| && forall i :: 0 <= i < |raws| ==> Converted(raws[i], r.value.1[i])
    decreases |raws|
  {
    if |raws| > 0 {
      var r0 := NewSplit(reg, raws[0]);
      if r0.Ok? {
        NewSplitsConverted(r0.value.0, raws[1..]);
        var r1 := NewSplits(r0.value.0, raws[1..]);
        if r1.Ok? {
          var conv := (raw, s) => Converted(raw, s);
          PointwiseCons(conv, raws, r0.value.1, r1.value.1);
        }
      }
    }
  }

  /** A relation that holds between heads and between tails holds between
      the whole sequences, pointwise. */
  lemma PointwiseCons<A, B>(p: (A, B) -> bool, xs: seq<A>, y: B, ys: seq<B>)
    requires |xs| > 0 && p(xs[0], y)
    requires |ys| == |xs| - 1 && forall i :: 0 <= i < |ys| ==> p(xs[1..][i], ys[i])
    ensures forall i :: 0 <= i < |xs| ==> p(xs[i], ([y] + ys)[i])
  {
    forall i | 1 <= i < |xs|
      ensures p(xs[i], ([y] + ys)[i])
    {
      assert xs[1..][i - 1] == xs[i];
    }
  }

  /** `Transaction.__init__`: the header fields as read, and the splits. */
  function NewTransaction(reg: Registry, raw: RawTransaction): (r: Result<(Registry, Transaction), Error>)
    requires Valid(reg)
    ensures r.Ok? ==> Valid(r.value.0)
  {
    var (reg1, splits) :- NewSplits(reg, raw.splits);
    Ok((reg1, Transaction(raw.date, raw.currency, raw.description, splits)))
  }

  /** A transaction is constructed exactly when all its splits are, fails
      with the first split's error otherwise, marks used exactly the
      accounts its splits refer to, and keeps the header fields. */
  lemma NewTransactionSpec(reg: Registry, raw: RawTransaction)
    requires Valid(reg)
    ensures var r := NewTransaction(reg, raw);
            && (r.Ok? <==> AllSplitsOk(reg.accounts.Keys, raw.splits))
            && (r.Err? ==> var i := FirstBadSplit(reg.accounts.Keys, raw.splits);
                           i < |raw.splits| && r.error == SplitError(reg.accounts.Keys, raw.splits[i]))
            && (r.Ok? ==> UsedAdded(reg, r.value.0, Referenced(raw.splits)))
            && (r.Ok? ==> Constructed(raw, r.value.1))
  {
    NewSplitsFails(reg, raw.splits);
    NewSplitsUsed(reg, raw.splits);
    NewSplitsConverted(reg, raw.splits);
  }

  /** The accounts referenced by any split of any of the transactions. */
  function ReferencedByAll(raws: seq<RawTransaction>): set<string> {
    set i, k | 0 <= i < |raws| && 0 <= k < |raws[i].splits| :: raws[i].splits[k].accountId
  }

  /** Every split of every transaction can be constructed. */
  predicate AllTransactionsOk(keys: set<string>, raws: seq<RawTransaction>) {
    forall i :: 0 <= i < |raws| ==> AllSplitsOk(keys, raws[i].splits)
  }

  /** Index of the first transaction holding a split that cannot be
      constructed, or `|raws|` when there is none. */
  function FirstBadTransaction(keys: set<string>, raws: seq<RawTransaction>): (i: nat)
    ensures i <= |raws|
    ensures i < |raws| ==> !AllSplitsOk(keys, raws[i].splits)
    ensures forall j :: 0 <= j < i ==> AllSplitsOk(keys, raws[j].splits)
    decreases |raws|
  {
    if |raws| == 0 then 0
    else if !AllSplitsOk(keys, raws[0].splits) then 0
    else 1 + FirstBadTransaction(keys, raws[1..])
  }

  /** The error of the first split that cannot be constructed, in the
      first transaction holding one. */
  function FirstError(keys: set<string>, raws: seq<RawTransaction>): Error
    requires FirstBadTransaction(keys, raws) < |raws|
  {
    var splits := raws[FirstBadTransaction(keys, raws)].splits;
    SplitError(keys, splits[FirstBadSplit(keys, splits)])
  }

  /** `t` is what constructing `raw` yields. */
  predicate Constructed(raw: RawTransaction, t: Transaction) {
    && t.date == raw.date && t.currency == raw.currency && t.description == raw.description
    && |t.splits| == |raw.splits|
    && forall k :: 0 <= k < |raw.splits| ==> Converted(raw.splits[k], t.splits[k])
  }

  /** The transaction loop of `convert2Ledger`: each transaction in document
      order, threading the registry through. */
  function NewTransactions(reg: Registry, raws: seq<RawTransaction>): (r: Result<(Registry, seq<Transaction>), Error>)
    requires Valid(reg)
    ensures r.Ok? ==> Valid(r.value.0)
    decreases |raws|
  {
    if |raws| == 0 then Ok((reg, []))
    else
      var (reg1, t) :- NewTransaction(reg, raws[0]);
      var (reg2, ts) :- NewTransactions(reg1, raws[1..]);
      Ok((reg2, [t] + ts))
  }

  /** The loop succeeds exactly when every split of every transaction can be
      constructed; otherwise it fails with the error of the first split
      that cannot, in the first transaction holding one. */
  lemma {:induction false} NewTransactionsFails(reg: Registry, raws: seq<RawTransaction>)
    requires Valid(reg)
    ensures var r := NewTransactions(reg, raws);
            && (r.Ok? <==> AllTransactionsOk(reg.accounts.Keys, raws))
            && (r.Err? ==> FirstBadTransaction(reg.accounts.Keys, raws) < |raws|
                           && r.error == FirstError(reg.accounts.Keys, raws))
    decreases |raws|
  {
    if |raws| > 0 {
      var keys := reg.accounts.Keys;
      NewTransactionSpec(reg, raws[0]);
      var r0 := NewTransaction(reg, raws[0]);
      if r0.Ok? {
        NewTransactionsFails(r0.value.0, raws[1..]);
        assert r0.value.0.accounts.Keys == keys;
        assert AllTransactionsOk(keys, raws) <==> AllTransactionsOk(keys, raws[1..]) by {
          if AllTransactionsOk(keys, raws[1..]) {
            forall i | 1 <= i < |raws| ensures AllSplitsOk(keys, raws[i].splits) {
              assert raws[1..][i - 1] == raws[i];
            }
          }
        }
      }
    }
  }

  /** The loop marks used exactly the accounts some split refers to and
      changes nothing else. */
  lemma {:induction false} NewTransactionsUsed(reg: Registry, raws: seq<RawTransaction>)
    requires Valid(reg)
    ensures var r := NewTransactions(reg, raws);
            r.Ok? ==> UsedAdded(reg, r.value.0, ReferencedByAll(raws))
    decreases |raws|
  {
    if |raws| > 0 {
      NewTransactionSpec(reg, raws[0]);
      var r0 := NewTransaction(reg, raws[0]);
      if r0.Ok? {
        var reg1 := r0.value.0;
        NewTransactionsUsed(reg1, raws[1..]);
        var r1 := NewTransactions(reg1, raws[1..]);
        if r1.Ok? {
          UsedAddedChain(reg, reg1, r1.value.0, Referenced(raws[0].splits), ReferencedByAll(raws[1..]));
          ReferencedByAllCons(raws);
        }
      }
    } else {
      assert ReferencedByAll(raws) == {};
    }
  }

  /** The constructed transactions correspond one to one, in order, to the
      raw ones. */
  lemma {:induction false} NewTransactionsConstructed(reg: Registry, raws: seq<RawTransaction>)
    requires Valid(reg)
    ensures var r := NewTransactions(reg, raws);
            r.Ok? ==> |r.value.1| == |raws| && forall i :: 0 <= i < |raws| ==> Constructed(raws[i], r.value.1[i])
    decreases |raws|
  {
    if |raws| > 0 {
      NewTransactionSpec(reg, raws[0]);
      var r0 := NewTransaction(reg, raws[0]);
      if r0.Ok? {
        NewTransactionsConstructed(r0.value.0, raws[1..]);
        var r1 := NewTransactions(r0.value.0, raws[1..]);
        if r1.Ok? {
          var built := (raw, t) => Constructed(raw, t);
          PointwiseCons(built, raws, r0.value.1, r1.value.1);
        }
      }
    }
  }

  lemma ReferencedByAllCons(raws: seq<RawTransaction>)
    requires |raws| > 0
    ensures ReferencedByAll(raws) == Referenced(raws[0].splits) + ReferencedByAll(raws[1..])
  {
    forall id | id in ReferencedByAll(raws)
      ensures id in Referenced(raws[0].splits) + ReferencedByAll(raws[1..])
    {
      var i, k :| 0 <= i < |raws| && 0 <= k < |raws[i].splits| && raws[i].splits[k].accountId == id;
      if i > 0 {
        assert raws[1..][i - 1] == raws[i];
      }
    }
    forall id | id in ReferencedByAll(raws[1..])
      ensures id in ReferencedByAll(raws)
    {
      var i, k :| 0 <= i < |raws[1..]| && 0 <= k < |raws[1..][i].splits| && raws[1..][i].splits[k].accountId == id;
      assert raws[i + 1] == raws[1..][i];
    }
  }

  /** The header line of a transaction: its date as `YYYY/MM/DD` and its
      description. */
  function Header(t: Transaction, indent: nat): string {
    Spaces(indent) + FormatDate(t.date) + " " + t.description
  }

  /** The rendered split lines, in the transaction's order, each in the
      transaction's currency; the first split that cannot be rendered
      fails the whole. */
  function SplitLines(accounts: map<string, Account>, t: Transaction, indent: nat): (r: Result<seq<string>, Error>)
    requires Acyclic(accounts)
    ensures r.Ok? <==> forall i :: 0 <= i < |t.splits| ==> SplitLine(accounts, t.splits[i], t.currency, indent).Ok?
    ensures r.Ok? ==> && |r.value| == |t.splits|
                      && forall i :: 0 <= i < |t.splits| ==> r.value[i] == SplitLine(accounts, t.splits[i], t.currency, indent).value
    ensures r.Err? ==> exists i :: && 0 <= i < |t.splits|
                                  && SplitLine(accounts, t.splits[i], t.currency, indent) == Err(r.error)
                                  && forall j :: 0 <= j < i ==> SplitLine(accounts, t.splits[j], t.currency, indent).Ok?
  {
    var rs := Map(t.splits, s => SplitLine(accounts, s, t.currency, indent));
    assert forall i :: 0 <= i < |t.splits| ==> rs[i] == SplitLine(accounts, t.splits[i], t.currency, indent);
    Collect(rs)
  }

  /** `Transaction.toLedgerFormat`: the header, a newline, the split lines
      joined by newlines, and a final newline. */
  function TransactionBlock(accounts: map<string, Account>, t: Transaction, indent: nat): (r: Result<string, Error>)
    requires Acyclic(accounts)
    ensures r.Ok? <==> SplitLines(accounts, t, indent).Ok?
    ensures r.Err? ==> r.error == SplitLines(accounts, t, indent).error
    ensures r.Ok? ==> |r.value| > 0 && r.value[|r.value| - 1] == '\n'
  {
    var lines :- SplitLines(accounts, t, indent);
    Ok(Block(Header(t, indent), lines))
  }

  /** With newline-free fields, a rendered transaction reads back as its
      header line, one line per split in order (one empty line when there
      are no splits), and the empty remainder after the final newline. */
  lemma TransactionLines(accounts: map<string, Account>, t: Transaction, indent: nat)
    requires Acyclic(accounts)
    requires TransactionBlock(accounts, t, indent).Ok?
    requires '\n' !in Header(t, indent)
    requires forall i :: 0 <= i < |t.splits| ==> '\n' !in SplitLine(accounts, t.splits[i], t.currency, indent).value
    ensures var lines := SplitOn(TransactionBlock(accounts, t, indent).value, '\n');
            && |lines| == 2 + (if |t.splits| == 0 then 1 else |t.splits|)
            && lines[0] == Header(t, indent)
            && lines[|lines| - 1] == ""
            && (|t.splits| == 0 ==> lines[1] == "")
            && forall i :: 0 <= i < |t.splits| ==> lines[i + 1] == SplitLine(accounts, t.splits[i], t.currency, indent).value
  {
    var header := Header(t, indent);
    var lines := SplitLines(accounts, t, indent).value;
    assert TransactionBlock(accounts, t, indent).value == Block(header, lines);
    BlockLineAt(header, lines);
  }
}

=== FILE: wrappers.dfy ===
/** Failure-compatible wrappers used throughout the converter, and the
    conversion's error kinds. */
module Wrappers {

  /** An optional value: the converter's stand-in for Python's `None`. */
  datatype Option<+T> = None | Some(value: T)

  /** Either a value or the error that aborted the computation. */
  datatype Result<+T, +E> = Ok(value: T) | Err(error: E) {

    predicate IsFailure() {
      Err?
    }

    function PropagateFailure<U>(): Result<U, E>
      requires Err?
    {
      Err(error)
    }

    function Extract(): T
      requires Ok?
    {
      value
    }
  }

  /** `f` applied to each element, in order. */
  function Map<A, B>(xs: seq<A>, f: A -> B): (r: seq<B>)
    ensures |r| == |xs| && forall i :: 0 <= i < |xs| ==> r[i] == f(xs[i])
  {
    seq(|xs|, i requires 0 <= i < |xs| => f(xs[i]))
  }

  /** Runs a sequence of computations in order and stops at the first one
      that failed, the way a Python generator fed to `join` stops at the
      first exception. */
  function Collect<T, E>(rs: seq<Result<T, E>>): (r: Result<seq<T>, E>)
    ensures r.Ok? <==> forall i :: 0 <= i < |rs| ==> rs[i].Ok?
    ensures r.Ok? ==> |r.value| == |rs| && forall i :: 0 <= i < |rs| ==> rs[i] == Ok(r.value[i])
    ensures r.Err? ==> exists i :: 0 <= i < |rs| && rs[i] == Err(r.error) && forall j :: 0 <= j < i ==> rs[j].Ok?
  {
    if |rs| == 0 then Ok([])
    else if rs[0].Err? then Err(rs[0].error)
    else
      match Collect(rs[1..])
      case Err(e) =>
        assert rs[1..][0] == rs[1];
        Err(e)
      case Ok(vs) => Ok([rs[0].value] + vs)
  }
}

/** The fatal conditions of one conversion. */
module Errors {

  datatype Error =
    | MissingAccount(id: string)    // a lookup of an account id absent from the registry
    | MalformedAmount(raw: string)  // an amount that is not exactly two `/`-separated fields
}
